=== FILE: README.md ===
# Chess app core in Dafny

This project models the core of a browser chess application. It covers a
Node/Express backend and a React frontend.

Backend:

- **The `Game` document** (backend/models/Game.js). Its schema defaults and
  validators, the `addMove` method and the `isFinished` method.
- **The REST controller** (backend/controllers/gameController.js). It covers
  create, get, update, recent games, join room and delete. The MongoDB
  collection is a sequence of documents in natural order. `findOne` returns
  the first match. `save` is rejected by a failing validator or by the unique
  index on `gameId`.
- **The Socket.IO handlers** (backend/socket/socket.js). These are
  `join-room`, `make-move`, `resign`, `offer-draw`, `draw-response`,
  `chat-message`, `disconnect` and `reconnect-room`. A server state holds
  the collection, the rooms (a map from room name to socket ids) and each
  socket's `roomId`/`playerName`. A handler returns the new state and its
  emissions. Each emission is addressed to the sender, to the room except
  the sender, or to the whole room.

Frontend:

- **The Stockfish web worker** (frontend/src/workers/stockfishWorker.js).
  It parses engine output lines into messages for the page, turns page
  requests into UCI commands, and converts UCI move strings.
- **The AI board** (frontend/src/components/ChessboardAI.js). It derives
  engine parameters from the difficulty and loads the game data. It also
  covers the turn hand-over between the human drop and the engine move,
  game-end detection, resign, draw, the status line and the move-history
  labels.
- **The request helpers** (frontend/src/services/api.js). These are the
  request paths and parameters, `handleError` and `retryRequest`.
- **The home page flows** (frontend/src/pages/HomePage.js). These are the
  recent-games list, starting an AI or PvP game, joining a room, the
  status badges and the upper-casing room-id field.

JavaScript's semantics are spelled out where they matter:

- `undefined`/missing values are `Option.None`.
- `||` defaults test truthiness: the empty string and `0` are falsy. See
  `JsText.Truthy` and `JsText.IntTruthy`.
- Destructuring defaults and Mongoose defaults apply only to `undefined`.
- `parseInt` and the `match(/score cp (-?\d+)/)` patterns are modelled
  character by character.

## What the code does not enforce

The model follows the code, which leaves several things to the clients:

- `make-move` saves whatever position it is sent, whoever sends it, and
  checks neither turn order nor legality.
- `resign` overwrites the outcome of a game that has already ended
  (`SocketServer.ResignOverridesFinishedGame`).
- `join-room` on the socket never checks seats.
- `offer-draw` is a plain relay: there is no pending-offer state, and a
  `draw-response` is honoured whether or not an offer was made.
- Disconnecting only leaves the rooms; no seat is vacated or kept.
- Room ids are not checked for uniqueness. A later room that draws the
  same id is hidden behind the earlier one, so `HomePage.CreatedRoomFirst`
  assumes a fresh id.

## Model

| member | source | states |
|---|---|---|
| GameModel.NewGame | backend/models/Game.js:3-89 | a new document has status active, no winner, ten-minute clocks, the start FEN and no moves; it is valid exactly when the id is non-empty, the type is one of ai/pvp/local and the difficulty (default 10) lies in 1..20 |
| GameModel.GenerateRoomId | backend/models/Game.js:107-109 | a generated room id is the lower-case prefix room_ followed by the draw with every letter upper-cased |
| GameModel.FinishedIffNotActive | backend/models/Game.js:132-134 | isFinished holds exactly for the five ending statuses, so on a valid document exactly when the status is not active |
| GameModel.FindRow | backend/models/Game.js:113 | the index found is the first row with that move number; none means no such row |
| GameModel.AddMove | backend/models/Game.js:112-129 | an existing row gets each truthy half replaced, other rows untouched; otherwise a new row is appended |
| GameModel.GameAddMove | backend/models/Game.js:112-129 | addMove changes the document's move table and nothing else |
| GameModel.AddMoveRecordsRow | backend/models/Game.js:112-129 | after addMove a row with that number exists and carries a truthy white move; distinct row numbers stay distinct |
| GameStore.Find | backend/controllers/gameController.js:55-60 | findOne yields the first matching document, or none when nothing matches |
| GameStore.Save | backend/controllers/gameController.js:98-105 | save succeeds exactly when the edited document is valid and its gameId is unique; it then replaces the old document and keeps the collection invariant |
| GameStore.Insert | backend/controllers/gameController.js:22-23 | inserting succeeds exactly when the document is valid and its gameId is new; it appends and keeps the invariant |
| GameStore.Remove | backend/controllers/gameController.js:195 | removal takes out exactly one document (as a multiset) and keeps the invariant; no remaining document has its gameId |
| GameController.BuildGameData | backend/controllers/gameController.js:8-20 | player names default to Anonymous (black to Stockfish AI in AI games); only AI games carry a difficulty, never 0; only PvP games get a room id |
| GameController.CreateGame | backend/controllers/gameController.js:4-47 | succeeds with 201 exactly when id, type and difficulty pass validation and the id is new; the appended document has the stated fields, a PvP game's room id being the generated one; failure is 500 and leaves the collection unchanged; a collection whose room ids all have the generated shape keeps that shape |
| GameController.GetGame | backend/controllers/gameController.js:50-81 | 404 exactly when no document matches the lookup (by roomId for type=room, else by gameId); otherwise 200 with the first match |
| GameController.UpdateGame | backend/controllers/gameController.js:84-119 | 404 exactly when no document has the id; on success each truthy or present field is replaced and every other field kept; other failures are 500 and change nothing |
| GameController.UpdateValidation | backend/controllers/gameController.js:97-105 | an update with a valid or falsy status and winner succeeds; an invalid truthy status is rejected with 500 |
| GameController.OfType | backend/controllers/gameController.js:126-127 | the filter keeps exactly the documents of that type, with multiplicity |
| GameController.InsertNewest | backend/controllers/gameController.js:130 | inserting into a newest-first list keeps it newest-first and adds exactly that document |
| GameController.SortNewest | backend/controllers/gameController.js:130 | the sort is a newest-first permutation of its input |
| GameController.LimitCount | backend/controllers/gameController.js:131 | limit 0 keeps everything; otherwise at most the absolute value of the limit is kept |
| GameController.TopOfSorted | backend/controllers/gameController.js:130-131 | a prefix of a newest-first list is newest-first, and every document left out is no newer than any document kept |
| GameController.RecentGames | backend/controllers/gameController.js:122-146 | the listing takes documents from the collection (only of the truthy type asked for), newest first, as many as the limit allows, and skips none that is newer than one it keeps |
| GameController.Pool | backend/controllers/gameController.js:126-127 | the query pool holds only stored documents, of the requested type when one is given |
| GameController.GetRecentGames | backend/controllers/gameController.js:129-137 | the reply is 200 and lists the selected fields of exactly the recent games, in order |
| GameController.JoinRoom | backend/controllers/gameController.js:149-188 | 404 exactly when no room matches; 400 exactly when the room's game is not active; a free black seat (Anonymous or empty) goes to the player; the reported colour is black exactly when the player's name is black's name |
| GameController.JoinOpenSeat | backend/controllers/gameController.js:169-178 | on a well-formed collection joining an existing room never fails with 500, and a named player joining an open active room is told black |
| GameController.DeleteGame | backend/controllers/gameController.js:191-215 | 404 exactly when no document has the id; otherwise exactly one document goes and none with that id remains |
| SocketServer.PlayersInRoom | backend/socket/socket.js:230-233 | the count is the room's size, 0 for an unknown room |
| SocketServer.Enter | backend/socket/socket.js:18-20 | joining adds the socket to that room only and records its room and name |
| SocketServer.LeaveAll | backend/socket/socket.js:179-188 | every room loses exactly that socket |
| SocketServer.OnJoinRoom | backend/socket/socket.js:8-43 | an unknown room only errors to the sender; otherwise the socket joins, the others hear player-joined with the new count, and the sender gets the game state without a winner field |
| SocketServer.OnMakeMove | backend/socket/socket.js:46-82 | the first game of the room takes the sent position, PGN and clocks, and the truthy status and winner; the move goes to the whole room; a failed save or an unknown room only errors to the sender |
| SocketServer.ResignWinner | backend/socket/socket.js:96 | the winner is black exactly when white resigned, and white otherwise (also when the resigning side is missing) |
| SocketServer.OnResign | backend/socket/socket.js:85-114 | the room's game becomes resigned with the opponent as winner, announced to the whole room |
| SocketServer.OnOfferDraw | backend/socket/socket.js:117-131 | a draw offer changes nothing and goes to the others in the room only |
| SocketServer.OnDrawResponse | backend/socket/socket.js:134-164 | a decline goes to the others and changes nothing; an acceptance makes the game a draw (if it exists) and is announced to the whole room |
| SocketServer.OnChat | backend/socket/socket.js:167-176 | a chat message changes nothing and goes to the whole room |
| SocketServer.OnDisconnect | backend/socket/socket.js:179-188 | the socket leaves every room and the connection table; player-left goes to the others exactly when it had a truthy room and name |
| SocketServer.OnReconnectRoom | backend/socket/socket.js:191-226 | as join, but the snapshot carries the winner and the others hear player-reconnected |
| SocketServer.Step | backend/socket/socket.js:4-227 | no handler adds, removes or re-keys a document or gives a room id another shape, and no handler touches the record of any socket other than the one whose event it handles |
| SocketServer.StepPreservesInvariant | backend/socket/socket.js:4-227 | every handler keeps the collection valid and every room member connected |
| SocketServer.Run | backend/socket/socket.js:4-227 | any sequence of events keeps the same documents under the same ids, and room ids of the generated shape keep that shape |
| SocketServer.RunPreservesInvariant | backend/socket/socket.js:4-227 | any sequence of events keeps the server invariant |
| SocketServer.JoinAudiences | backend/socket/socket.js:23-36 | player-joined reaches exactly the earlier members and counts them plus the joiner; the snapshot reaches only the joiner |
| SocketServer.SnapshotWinner | backend/socket/socket.js:206-214 | the reconnect snapshot carries the stored winner while the join snapshot omits it |
| SocketServer.BroadcastReach | backend/socket/socket.js:67 | to-others never reaches the sender, to-room reaches it exactly when it is a member, and the two differ by just the sender |
| SocketServer.MoveBroadcast | backend/socket/socket.js:58-75 | a valid move is stored and sent once, to every member of the room |
| SocketServer.ResignOverridesFinishedGame | backend/socket/socket.js:96-101 | resigning a game already ended by checkmate overwrites its status and winner |
| SocketServer.DisconnectOnlyLeaver | backend/socket/socket.js:179-188 | a disconnect leaves every other socket connected and in its rooms |
| StockfishWorker.UciToMove | frontend/src/workers/stockfishWorker.js:166-174 | strings shorter than four give none; otherwise the first two and next two characters are the squares and a fifth is the promotion |
| StockfishWorker.UciRoundTrip | frontend/src/workers/stockfishWorker.js:166-174 | a rendered move converts back to itself |
| StockfishWorker.UciStringRoundTrip | frontend/src/workers/stockfishWorker.js:166-174 | a four- or five-character UCI string renders back to itself |
| StockfishWorker.Start | frontend/src/workers/stockfishWorker.js:67-74 | a loaded engine is sent uci; a failed load posts the load error |
| StockfishWorker.BestMoveOf | frontend/src/workers/stockfishWorker.js:24-39 | the second space-separated word is the best move unless it is missing or (none), which gives the no-move error |
| StockfishWorker.OnEngineLine | frontend/src/workers/stockfishWorker.js:14-64 | ready is posted exactly for uciok; a move or no-move message exactly for bestmove lines; an evaluation (a mate) is posted exactly when the line contains score cp (score mate) followed by a number, and carries that number |
| StockfishWorker.BestMoveLine | frontend/src/workers/stockfishWorker.js:24-39 | a bestmove line with a move and optional ponder yields that move |
| StockfishWorker.NoMoveLine | frontend/src/workers/stockfishWorker.js:24-39 | bestmove (none) yields the no-move error |
| StockfishWorker.BareBestMoveLine | frontend/src/workers/stockfishWorker.js:24-39 | a bare bestmove yields the no-move error |
| StockfishWorker.ScoreCpLine | frontend/src/workers/stockfishWorker.js:42-51 | a line whose first score cp is followed by a rendered number, whatever precedes it, reports that number as an evaluation |
| StockfishWorker.ScoreMateLine | frontend/src/workers/stockfishWorker.js:54-63 | a line whose first score mate is followed by a rendered number, whatever precedes it, reports that number as a mate |
| StockfishWorker.InfoLineScore | frontend/src/workers/stockfishWorker.js:42-51 | a search info line as the engine prints it (depth, seldepth, multipv, score cp 77, nodes, pv) is reported as evaluation 77 |
| StockfishWorker.PositionCommand | frontend/src/workers/stockfishWorker.js:95-104 | a truthy FEN wins; else a move list, even an empty one; else the start position |
| StockfishWorker.GoCommands | frontend/src/workers/stockfishWorker.js:106-123 | the skill level (default 20) is set before the go command with depth and movetime (defaults 10 and 1000) |
| StockfishWorker.OnRequest | frontend/src/workers/stockfishWorker.js:77-155 | without an engine every request errors; unknown kinds error; each known kind sends its commands and posts at most ready |
| StockfishWorker.PositionMovesRoundTrip | frontend/src/workers/stockfishWorker.js:99-100 | the command's words are position, startpos, moves and then the moves themselves |
| StockfishWorker.SkillRoundTrip | frontend/src/workers/stockfishWorker.js:111 | the skill value parses back from the setoption command |
| StockfishWorker.DepthAndMovetime | frontend/src/workers/stockfishWorker.js:114-115 | both limits read back from the combined go command |
| StockfishWorker.SingleLimit | frontend/src/workers/stockfishWorker.js:116-119 | the depth or the movetime reads back from a go command that carries only that limit |
| StockfishWorker.FallbackLimits | frontend/src/workers/stockfishWorker.js:120-121 | the fallback go command carries depth 10 and movetime 1000 |
| StockfishWorker.GoCarriesLimits | frontend/src/workers/stockfishWorker.js:114-122 | every non-zero limit reads back from the go command, and with neither the fallback limits do |
| ChessboardAi.Clip | frontend/src/components/ChessboardAI.js:80-81 | the clamp lies in the range and keeps values already in it |
| ChessboardAi.Difficulty | frontend/src/components/ChessboardAI.js:79 | a truthy difficulty is used, otherwise 10; never 0 |
| ChessboardAi.FourFifths | frontend/src/components/ChessboardAI.js:92 | the floor of four fifths of the difficulty |
| ChessboardAi.ParamsOf | frontend/src/components/ChessboardAI.js:78-95 | skill, depth and movetime lie in 1..20, 1..15 and 100..5000; for difficulties 1..20 skill is the difficulty and movetime 200 times it |
| ChessboardAi.ParamsMonotone | frontend/src/components/ChessboardAI.js:78-95 | a higher difficulty never lowers any engine parameter |
| ChessboardAi.ParamsAtEnds | frontend/src/components/ChessboardAI.js:78-95 | difficulties 1, 10 and 20 give (1,1,200), (10,8,2000) and (20,15,4000) |
| ChessboardAi.FromCreated | frontend/src/pages/HomePage.js:39-41 | a created game handed to the board carries its white player and difficulty, with no clocks or winner |
| ChessboardAi.PlayerColorAsWritten | frontend/src/components/ChessboardAI.js:59 | the player is white exactly when white's name is Anonymous |
| ChessboardAi.LoadGameDataAsWritten | frontend/src/components/ChessboardAI.js:53-65 | loading a game named by its creator seats the player as black |
| ChessboardAi.PlayerColor | frontend/src/components/ChessboardAI.js:59 | the corrected colour rule of the finding below: the creator of an AI game is seated white whatever name white carries |
| ChessboardAi.LoadGameData | frontend/src/components/ChessboardAI.js:53-65 | loading game data with the corrected colour rule: the board takes the FEN, clocks (ten minutes each when absent), status and winner, is active exactly for an active game, and seats the player white; it agrees with the as-written load exactly when white is named Anonymous |
| ChessboardAi.RequestAiMove | frontend/src/components/ChessboardAI.js:74-97 | when allowed the engine is marked busy and sent a position request with the current FEN and a go request with the difficulty's parameters; otherwise nothing happens |
| ChessboardAi.RequestReachesEngine | frontend/src/components/ChessboardAI.js:83-95 | the two requests make the worker send the FEN, the skill level and a go command whose depth and movetime read back as the parameters |
| ChessboardAi.AiMoveSquares | frontend/src/components/ChessboardAI.js:102-104 | the squares taken from the engine's move agree with the worker's conversion |
| ChessboardAi.CheckGameEnd | frontend/src/components/ChessboardAI.js:184-200 | a game that is over becomes inactive; checkmate goes to the side not to move, stalemate and draw to draw; nothing else changes |
| ChessboardAi.GameEndIsFinished | frontend/src/components/ChessboardAI.js:184-200 | a recognised ending gives a valid finished status and a valid winner that is not the mated side |
| ChessboardAi.AfterMove | frontend/src/components/ChessboardAI.js:161-167 | a played move is appended to the history and the turn passes |
| ChessboardAi.OnDrop | frontend/src/components/ChessboardAI.js:136-182 | a drop is accepted exactly when allowed and legal; a refusal changes nothing; an acceptance hands the turn to the engine with one more history entry |
| ChessboardAi.DropRejections | frontend/src/components/ChessboardAI.js:138-152 | drops are refused while the engine thinks, off turn, after the game ends, for a black piece on white's turn, and for a black player on white's turn |
| ChessboardAi.MakeAiMove | frontend/src/components/ChessboardAI.js:99-134 | an illegal engine move only clears thinking; a legal one is appended and hands the turn back |
| ChessboardAi.TurnsAlternate | frontend/src/components/ChessboardAI.js:67-182 | after a legal drop the engine is due, and after its legal reply the player is to move again with two more history entries |
| ChessboardAi.ResignWinner | frontend/src/components/ChessboardAI.js:220 | the engine wins as black exactly when the player is white |
| ChessboardAi.HandleResign | frontend/src/components/ChessboardAI.js:217-237 | an unconfirmed resign does nothing; a confirmed one ends the game for the engine and sends the matching update |
| ChessboardAi.ResignReachesServer | frontend/src/components/ChessboardAI.js:225-232 | the server stores the same status and winner as the board, keeps the moves, and the document stays valid |
| ChessboardAi.HandleOfferDraw | frontend/src/components/ChessboardAI.js:239-249 | a drawn position ends the game as a draw; otherwise nothing changes |
| ChessboardAi.StatusMessage | frontend/src/components/ChessboardAI.js:251-267 | checkmate and resignation name White exactly when white won and Black otherwise; stalemate and draw have their fixed texts |
| ChessboardAi.StatusPrecedence | frontend/src/components/ChessboardAI.js:251-267 | an ending hides the thinking and turn state; otherwise thinking is shown exactly while the engine thinks, then the player's turn exactly when it is theirs, and AI is moving exactly when it is not; endings name white exactly when white won |
| ChessboardAi.LabelRoundTrip | frontend/src/components/ChessboardAI.js:324-335 | each history label reads back as its move number, side and SAN |
| ChessboardAi.NamedCreatorStuck | frontend/src/components/ChessboardAI.js:59 | with the board as written, a named creator can never drop a piece and the engine is never due |
| ChessboardAi.CreatorMovesFirst | frontend/src/components/ChessboardAI.js:53-72 | with the creator seated white, the first legal drop is accepted and the engine becomes due |
| ApiService.HandleError | frontend/src/services/api.js:101-108 | the server's message wins, then the error's own message, then the default |
| ApiService.GetGameErrorShown | frontend/src/services/api.js:101-108 | a failed game lookup is shown as Game not found |
| ApiService.JoinRoomErrorShown | frontend/src/services/api.js:101-108 | a failed join is shown as one of the join handler's messages |
| ApiService.UpdateGameErrorShown | frontend/src/services/api.js:101-108 | a failed update is shown as one of the update handler's messages |
| ApiService.NoReplyMessages | frontend/src/services/api.js:101-108 | without a server message the error's message is shown, and without either the default |
| ApiService.RetryRequest | frontend/src/services/api.js:121-130 | returns the first success among at most maxRetries (default 3) calls, with a delay between calls; rethrows the last error when all fail; with no attempts allowed it returns undefined |
| ApiService.GeneratedRoomIdPlain | frontend/src/services/api.js:59-62 | every room id generated from a base-36 draw is plain text (letters, digits, `_`), so it crosses the URL unchanged |
| ApiService.GetGameRoundTrip | frontend/src/services/api.js:59-62 | for a plain id and type, the type in the path (default game) is the type the server reads, so it looks up by room exactly when room was asked |
| ApiService.RecentGamesParams | frontend/src/services/api.js:71-77 | the limit defaults to 10 and the type is sent only when truthy |
| ApiService.RecentGamesThroughServer | frontend/src/services/api.js:71-77 | dropping a falsy type changes nothing on the server; a truthy type filters and a positive limit bounds the listing |
| HomePage.GameStatusDisplay | frontend/src/pages/HomePage.js:112-118 | active and draw have their fixed badges |
| HomePage.StatusDisplayForms | frontend/src/pages/HomePage.js:112-118 | exactly the statuses without their own text show the stop badge followed by the raw status |
| HomePage.WinnerBadges | frontend/src/pages/HomePage.js:114-116 | the checkmate and resignation badges contain the winner's text, and two badges of one status are equal exactly when they show the same winner |
| HomePage.FetchRecentGames | frontend/src/pages/HomePage.js:16-25 | the page shows up to five games, newest first, each the listing of a stored game |
| HomePage.RoomIdField | frontend/src/pages/HomePage.js:205 | the field keeps the length, holds no lower-case letter and keeps every other character |
| HomePage.RoomIdFieldStable | frontend/src/pages/HomePage.js:205 | upper-casing is idempotent, and inputs differing only in case give the same field |
| HomePage.RoomIdFieldCorrected | frontend/src/pages/HomePage.js:205 | the corrected field keeps the length and changes only the case of letters |
| HomePage.CorrectedFieldKeepsRoomId | frontend/src/pages/HomePage.js:205 | the corrected field turns any capitalisation of a generated room id into exactly that id |
| HomePage.AiGameRequest | frontend/src/pages/HomePage.js:27-48 | the AI request has type ai, the name or Anonymous as white, the difficulty and the ten-minute clock |
| HomePage.PvpGameRequest | frontend/src/pages/HomePage.js:50-70 | the PvP request has type pvp and the name or Anonymous as white |
| HomePage.StartGame | frontend/src/pages/HomePage.js:27-70 | a created game opens the board; a failure shows the flow's own error |
| HomePage.AiGameOpens | frontend/src/pages/HomePage.js:27-48 | a valid AI game opens with the player as white against Stockfish AI at that difficulty and without a room |
| HomePage.NamedAiGameStuck | frontend/src/pages/HomePage.js:27-48 | a named player's new AI game, loaded by the board as written, refuses every drop and never asks the engine |
| HomePage.NamedAiGamePlays | frontend/src/pages/HomePage.js:27-48 | with the creator seated white, the first legal drop of a new AI game is accepted |
| HomePage.JoinError | frontend/src/pages/HomePage.js:95-100 | 404 shows the room-not-found text and every other failure the generic one |
| HomePage.JoinPvp | frontend/src/pages/HomePage.js:72-105 | a blank room id sends nothing; otherwise at least one request is made; the board opens exactly when no error is shown; a failure leaves the collection as it was |
| HomePage.JoinUnknownRoom | frontend/src/pages/HomePage.js:81-97 | an unknown room stops after the lookup with the room-not-found text |
| HomePage.JoinClosedRoom | frontend/src/pages/HomePage.js:81-99 | a finished room fails at the join with the generic text after two requests |
| HomePage.JoinOpenRoom | frontend/src/pages/HomePage.js:81-92 | an active room with a free black seat opens that game with the player (or Anonymous) as black |
| HomePage.GeneratedIdsMissField | frontend/src/pages/HomePage.js:205 | as written, no generated room id equals what the field holds for any non-blank input |
| HomePage.PageJoinAlwaysMisses | frontend/src/pages/HomePage.js:205 | as written, whatever non-blank text is typed, the join finds no room among generated room ids and shows room-not-found after one request |
| HomePage.CreatedRoomFirst | frontend/src/pages/HomePage.js:50-70 | a PvP game created with a fresh room id is the game its room lookup finds, active with a free black seat |
| HomePage.CorrectedFieldFindsCreatedRoom | frontend/src/pages/HomePage.js:205 | with the corrected field, any capitalisation of a just-created room's id looks up that new game |
| HomePage.JoinCreatedRoom | frontend/src/pages/HomePage.js:72-92 | with the corrected field, typing a just-created room's id in any case joins that game as black |

## Left out

- Persistence and transport: MongoDB, Mongoose middleware, Express routing (backend/routes/gameRoutes.js), HTTP and the Socket.IO wire. The collection is a sequence of documents and each handler a pure function on it.
- Concurrency: every request and socket event is applied whole, one at a time. Interleavings of the `async` handlers are not modelled.
- Randomness and clocks: `generateGameId`, `generateRoomId`, `Date.now` and `new Date()` are parameters (`gameId`, `roomDraw`, `now`, `timestamp`). `roomDraw` is the random base-36 text that `generateRoomId` upper-cases behind `room_`.
- `timestamps`, `updatedAt`, the `duration` virtual and each move's own timestamp: they only record times.
- Chess rules: chess.js legality, FEN/PGN and game-over detection are arguments (`Played`, `Position`, `isDraw`).
- React plumbing: `useState` batching, effect scheduling and stale closures are not modelled. For instance, `updateGameInDatabase` after a draw sends the state from before the draw. Each handler is a function from board to board.
- `window.confirm` and `alert` are a `confirmed` flag and an unchanged board.
- The worker's `onerror` handler and its engine `onerror`: they only relay browser error text.
- The axios interceptors, the `localStorage` token and `isServerReachable`, plus the thin `gameAPI` wrappers other than the paths modelled (`createGame`, `updateGame`, `joinRoom`, `deleteGame`, `healthCheck`). They only forward to the network.
- frontend/src/App.js is not part of this model.
- `formatGameTime`: locale-dependent date formatting.
- ChessboardAi.FourFifths: `Math.floor(difficulty * 0.8)` is floating point. The model uses exact integer arithmetic. The two agree for every difficulty the page offers (1..20) but are not shown to agree for all numbers.
- GameController.LimitCount: a non-numeric `limit` makes `parseInt` give `NaN`, which is not modelled; the limit is an integer.
- HomePage.RoomIdField: `toUpperCase` is modelled for ASCII letters only.
- HomePage.JoinPvp: the room id goes into the request path without URL encoding; the model assumes it reaches the server unchanged.
- Socket payloads missing entirely (a handler called with no data object) are not modelled.
- Socket payload fields modelled as always present: what `undefined` does there depends on how Mongoose casts queries and assignments, which is outside these sources.
  - `roomId` of every socket event: a `findOne({ roomId: undefined })` filter is not modelled.
  - `currentFen`, `pgn` and `playerTimes` of `make-move`: assigning `undefined` unsets the stored field, which is not modelled.
- SocketServer.OnDrawResponse: `accepted` is the truthiness of the payload's field rather than the raw value, because the handler only tests it with `if`.
- The optional payload fields (`playerName`, `move`, `gameStatus`, `winner`, `resigningPlayer`, `offeredBy`, `respondedBy`, `message`, `sender`) may be absent; the model covers that.
- The room Socket.IO creates for each socket's own id is not modelled; rooms hold only game rooms.
- ApiService.GetGameRoundTrip: the path and query are built without URL encoding, and Express's path and query parsing is not modelled. The round trip is stated only for plain ids and types (ASCII letters, digits and `_`), which cover `game`, `room` and every generated id.
- StockfishWorker.OnRequest: requests are assumed to carry a `data` object. Without one the worker throws while reading it, and its error handler posts a worker error. No page in these sources sends such a request.
- ApiService.RetryRequest: the delay between attempts is counted as a number of waits, not timed.

## Findings

| source | as written | input that shows it | evidently intended | confidence | as-written member | corrected member |
|---|---|---|---|---|---|---|
| frontend/src/components/ChessboardAI.js:59 | the board seats the human as black whenever white's name is not Anonymous | an AI game created by a player who typed a name such as "Alice": white is to move, but every drop is refused because the player is black, and the engine only moves after the player, so nobody can ever move | the human who created the AI game always plays white (the server stores the creator as playerWhite and the engine as black) | not executed | ChessboardAi.NamedCreatorStuck | ChessboardAi.CreatorMovesFirst |
| frontend/src/pages/HomePage.js:205 | the room-id field upper-cases everything typed, while every generated room id starts with the lower-case `room_` and the room lookup compares exactly | a PvP room created as `room_AB12CD34`; the second player types `room_AB12CD34`, the field holds `ROOM_AB12CD34`, and the lookup answers "Room not found" | typing the id shown for a room, in any letter case, joins that room | not executed | HomePage.PageJoinAlwaysMisses | HomePage.JoinCreatedRoom |

=== FILE: api_service.dfy ===
/** The page-side request helpers of frontend/src/services/api.js: the
    request paths and query parameters `gameAPI` builds, the message
    `apiUtils.handleError` picks out of a failed request, and the bounded
    loop of `apiUtils.retryRequest`. The HTTP client itself is not modelled;
    a request's outcome is an argument. */
module ApiService {
  import opened Wrappers
  import opened JsText
  import opened GameModel
  import opened GameStore
  import GC = GameController

  // ---------------------------------------------------------------------------
  // handleError

  /** The two places a failed request carries text: the server's
      `response.data.message` and the client error's own `message`. */
  datatype RequestError = RequestError(serverMessage: Option<string>, message: Option<string>)

  const GenericError: string := "An error occurred"

  /** `handleError(error, defaultMessage)`: the server's message, else the
      error's message, else the default. */
  function HandleError(e: RequestError, defaultMessage: Option<string>): (m: string)
    ensures Truthy(e.serverMessage) ==> m == e.serverMessage.value
    ensures !Truthy(e.serverMessage) && Truthy(e.message) ==> m == e.message.value
    ensures !Truthy(e.serverMessage) && !Truthy(e.message) ==> m == defaultMessage.GetOr(GenericError)
  {
    if Truthy(e.serverMessage) then e.serverMessage.value
    else if Truthy(e.message) then e.message.value
    else defaultMessage.GetOr(GenericError)
  }

  /** The error the HTTP client raises for a failure reply: the reply's
      message as `response.data.message` and the client's own summary. */
  function ErrorOfReply<T>(r: GC.Reply<T>): RequestError
    requires r.Fail?
  {
    RequestError(Some(r.message), Some("Request failed with status code " + IntToString(r.status)))
  }

  /** A failed getGame reaches the page as the handler's own message, never
      as the client's summary or the default. */
  lemma GetGameErrorShown(store: Store, id: string, queryType: Option<string>, dflt: Option<string>)
    ensures var r := GC.GetGame(store, id, queryType);
      r.Fail? ==> HandleError(ErrorOfReply(r), dflt) == "Game not found"
  {
  }

  /** A failed joinRoom reaches the page as one of the handler's messages. */
  lemma JoinRoomErrorShown(store: Store, roomId: string, playerName: Option<string>, dflt: Option<string>)
    ensures var r := GC.JoinRoom(store, roomId, playerName).1;
      r.Fail? ==> HandleError(ErrorOfReply(r), dflt) in {"Room not found", "Game is not active", "Failed to join room"}
  {
    var r := GC.JoinRoom(store, roomId, playerName).1;
    if r.Fail? {
      assert HandleError(ErrorOfReply(r), dflt) == r.message;
    }
  }

  /** A failed updateGame reaches the page as one of the handler's messages. */
  lemma UpdateGameErrorShown(store: Store, id: string, u: GC.UpdateRequest, dflt: Option<string>)
    ensures var r := GC.UpdateGame(store, id, u).1;
      r.Fail? ==> HandleError(ErrorOfReply(r), dflt) in {"Game not found", "Failed to update game"}
  {
    var r := GC.UpdateGame(store, id, u).1;
    if r.Fail? {
      assert HandleError(ErrorOfReply(r), dflt) == r.message;
    }
  }

  /** Without a reply (a network failure) the client's message is shown;
      with neither, the default. */
  lemma NoReplyMessages(message: string, dflt: Option<string>)
    requires message != ""
    ensures HandleError(RequestError(None, Some(message)), dflt) == message
    ensures HandleError(RequestError(None, None), None) == GenericError
    ensures HandleError(RequestError(Some(""), None), dflt) == dflt.GetOr(GenericError)
  {
  }

  // ---------------------------------------------------------------------------
  // retryRequest

  /** What one call of the request function does. */
  datatype Outcome<T> = Success(value: T) | Thrown(error: string)

  /** How `retryRequest` ends: it returns a value, rethrows an error, or
      falls off the end of the loop and returns `undefined`. */
  datatype RetryResult<T> = Returned(value: T) | Rethrown(error: string) | Undefined

  /** `retryRequest(requestFn, maxRetries)`; `attempt(i)` is what the
      `i`-th call of `requestFn` does. Besides the result it reports how
      many calls were made and how many delays were waited. */
  method RetryRequest<T>(attempt: nat -> Outcome<T>, maxRetries: Option<int>)
    returns (r: RetryResult<T>, calls: nat, waits: nat)
    ensures var n := maxRetries.GetOr(3);
      && (n <= 0 ==> r == Undefined && calls == 0 && waits == 0)
      && (n > 0 ==> !r.Undefined? && 1 <= calls <= n && waits == calls - 1)
      && (r.Returned? <==> exists j :: 0 <= j < n && attempt(j).Success?)
      && (r.Returned? ==> attempt(calls - 1) == Success(r.value)
                          && forall j :: 0 <= j < calls - 1 ==> attempt(j).Thrown?)
      && (r.Rethrown? ==> calls == n && attempt(n - 1) == Thrown(r.error)
                          && forall j :: 0 <= j < n ==> attempt(j).Thrown?)
  {
    var n := maxRetries.GetOr(3);
    var i: nat := 0;
    calls, waits := 0, 0;
    while i < n
      invariant i == 0 || i < n
      invariant calls == i && waits == i
      invariant forall j :: 0 <= j < i ==> attempt(j).Thrown?
      decreases n - i
    {
      calls := calls + 1;
      match attempt(i)
      case Success(v) =>
        r := Returned(v);
        return;
      case Thrown(e) =>
        if i == n - 1 {
          r := Rethrown(e);
          return;
        }
        waits := waits + 1;
      i := i + 1;
    }
    r := Undefined;
  }

  // ---------------------------------------------------------------------------
  // Paths and parameters

  /** `gameAPI.getGame(id, type)`: the path with its query string, the type
      defaulting to 'game'. */
  function GetGamePath(id: string, queryType: Option<string>): string {
    "/games/" + id + "?type=" + queryType.GetOr("game")
  }

  /** The `type` query value the server reads from a path of that shape. */
  function QueryTypeOf(path: string): Option<string> {
    var parts := Split(path, '?');
    if |parts| == 2 && StartsWith(parts[1], "type=") then Some(parts[1][5..]) else None
  }

  /** Text that passes through a URL path or query unchanged: ASCII letters,
      digits and `_`. The path is built without encoding, so other
      characters (`/`, `?`, `&`, `#`, `%`, `+`) may reach the server altered. */
  predicate PlainText(s: string) {
    forall i :: 0 <= i < |s| ==> IsDigit(s[i]) || IsLowerAscii(s[i]) || IsUpperAscii(s[i]) || s[i] == '_'
  }

  /** Every room id the server generates from a base-36 draw is plain. */
  lemma GeneratedRoomIdPlain(draw: string)
    requires forall i :: 0 <= i < |draw| ==> IsDigit(draw[i]) || IsLowerAscii(draw[i])
    ensures PlainText(GenerateRoomId(draw))
  {
    var id := GenerateRoomId(draw);
    forall i | 0 <= i < |id|
      ensures IsDigit(id[i]) || IsLowerAscii(id[i]) || IsUpperAscii(id[i]) || id[i] == '_'
    {
      if i >= 5 {
        assert UpperChar(id[i]) == UpperChar(draw[i - 5]);
      } else {
        assert id[..5] == "room_" && id[i] == "room_"[i];
      }
    }
  }

  /** For a plain id and a plain type, the type the page sends is the type
      the server reads; and the server then looks the game up by room
      exactly when the page asked for a room. */
  lemma GetGameRoundTrip(id: string, queryType: Option<string>)
    requires PlainText(id) && PlainText(queryType.GetOr("game"))
    ensures QueryTypeOf(GetGamePath(id, queryType)) == Some(queryType.GetOr("game"))
    ensures GC.LookupKey(id, QueryTypeOf(GetGamePath(id, queryType))) ==
      if queryType == Some("room") then ByRoomId(id) else ByGameId(id)
  {
    var t := queryType.GetOr("game");
    var path := GetGamePath(id, queryType);
    assert path == ("/games/" + id) + ['?'] + ("type=" + t);
    assert '?' !in "/games/" + id;
    SplitWord("/games/" + id, "type=" + t, '?');
    SplitNoSep("type=" + t, '?');
    assert ("type=" + t)[..5] == "type=";
    assert ("type=" + t)[5..] == t;
  }

  /** The query parameters of `gameAPI.getRecentGames(limit, gameType)`. */
  datatype RecentParams = RecentParams(limit: int, gameType: Option<string>)

  function RecentGamesParams(limit: Option<int>, gameType: Option<string>): (p: RecentParams)
    ensures p.limit == limit.GetOr(10)
    ensures p.gameType.Some? <==> Truthy(gameType)
    ensures p.gameType.Some? ==> p.gameType == gameType
  {
    RecentParams(limit.GetOr(10), if Truthy(gameType) then gameType else None)
  }

  /** Leaving out a falsy type on the page changes nothing on the server,
      which ignores a falsy type too; a truthy type filters the listing and
      a positive limit bounds it. */
  lemma RecentGamesThroughServer(store: Store, limit: Option<int>, gameType: Option<string>)
    ensures var p := RecentGamesParams(limit, gameType);
      var games := GC.RecentGames(store, Some(p.limit), p.gameType);
      && games == GC.RecentGames(store, Some(limit.GetOr(10)), gameType)
      && (Truthy(gameType) ==> forall i :: 0 <= i < |games| ==> games[i].gameType == gameType.value)
      && (p.limit > 0 ==> |games| <= p.limit)
  {
  }
}

=== FILE: chessboard_ai.dfy ===
/** The game-against-the-engine screen (frontend/src/components/ChessboardAI.js)
    as a state record and pure transitions. Chess rules come from chess.js and
    are not modelled: each transition receives what chess.js would answer
    (the side to move, the game-over flags, whether a move was accepted and
    its SAN) as an argument. */
module ChessboardAi {
  import opened Wrappers
  import opened JsText
  import opened GameModel
  import SW = StockfishWorker
  import GC = GameController

  // ---------------------------------------------------------------------------
  // Engine parameters

  /** `Math.max(lo, Math.min(hi, x))`. */
  function Clip(lo: int, hi: int, x: int): (r: int)
    requires lo <= hi
    ensures lo <= r <= hi
    ensures lo <= x <= hi ==> r == x
    ensures x < lo ==> r == lo
    ensures hi < x ==> r == hi
  {
    if x < lo then lo else if x > hi then hi else x
  }

  /** `gameData?.aiDifficulty || 10`. */
  function Difficulty(aiDifficulty: Option<int>): (d: int)
    ensures d != 0
    ensures IntTruthy(aiDifficulty) ==> d == aiDifficulty.value
    ensures !IntTruthy(aiDifficulty) ==> d == DefaultDifficulty
  {
    if IntTruthy(aiDifficulty) then aiDifficulty.value else DefaultDifficulty
  }

  /** `floor(d * 0.8)` computed exactly: `/` on `int` floors for a positive
      divisor. */
  function FourFifths(d: int): (q: int)
    ensures 5 * q <= 4 * d < 5 * q + 5
  {
    (4 * d) / 5
  }

  datatype EngineParams = EngineParams(skill: int, depth: int, movetime: int)

  /** Skill, search depth and move time for a difficulty. */
  function ParamsOf(d: int): (p: EngineParams)
    ensures 1 <= p.skill <= 20 && 1 <= p.depth <= 15 && 100 <= p.movetime <= 5000
    ensures 1 <= d <= 20 ==> p.skill == d
    ensures 1 <= d <= 19 ==> p.depth == if d == 1 then 1 else FourFifths(d)
    ensures 1 <= d <= 20 ==> p.movetime == 200 * d
  {
    EngineParams(Clip(1, 20, d), Clip(1, 15, FourFifths(d)), Clip(100, 5000, d * 200))
  }

  /** A harder setting never gives a weaker engine: all three parameters
      are monotone in the difficulty. */
  lemma ParamsMonotone(a: int, b: int)
    requires a <= b
    ensures ParamsOf(a).skill <= ParamsOf(b).skill
    ensures ParamsOf(a).depth <= ParamsOf(b).depth
    ensures ParamsOf(a).movetime <= ParamsOf(b).movetime
  {
    assert FourFifths(a) <= FourFifths(b) by {
      assert 5 * FourFifths(a) <= 4 * a <= 4 * b < 5 * FourFifths(b) + 5;
    }
  }

  /** The two ends of the selectable range, and the default. */
  lemma ParamsAtEnds()
    ensures ParamsOf(1) == EngineParams(1, 1, 200)
    ensures ParamsOf(10) == EngineParams(10, 8, 2000)
    ensures ParamsOf(20) == EngineParams(20, 15, 4000)
  {
  }

  // ---------------------------------------------------------------------------
  // Screen state

  /** What chess.js reports about a position. `turn` is 'w' or 'b'. */
  datatype Position = Position(fen: string, turn: char, isGameOver: bool, isCheckmate: bool,
                               isStalemate: bool, isDraw: bool)

  /** A move chess.js accepted: its SAN and the position it leads to. */
  datatype Played = Played(san: string, after: Position)

  datatype Board = Board(
    position: string,
    gameStatus: string,
    winner: Option<string>,
    playerColor: string,
    isPlayerTurn: bool,
    thinking: bool,
    history: seq<string>,
    isGameActive: bool,
    playerTimes: PlayerTimes)

  /** The state before any game data arrives. */
  const InitialBoard: Board :=
    Board(StartFen, "active", None, "white", true, false, [], true, PlayerTimes(TenMinutes, TenMinutes))

  /** The game object the screen is opened with; fields the object may lack
      are optional. */
  datatype ScreenData = ScreenData(
    currentFen: string,
    playerWhite: string,
    gameStatus: string,
    winner: Option<string>,
    playerTimes: Option<PlayerTimes>,
    aiDifficulty: Option<int>)

  /** The summary createGame returns carries neither clocks nor a winner. */
  function FromCreated(c: GC.CreatedGame): (d: ScreenData)
    ensures d.playerTimes.None? && d.winner.None?
    ensures d.playerWhite == c.playerWhite && d.aiDifficulty == Some(c.aiDifficulty)
  {
    ScreenData(c.currentFen, c.playerWhite, c.gameStatus, None, None, Some(c.aiDifficulty))
  }

  /** The colour the screen gives the human, as written: white only for a
      player named 'Anonymous'. */
  function PlayerColorAsWritten(playerWhite: string): (c: string)
    ensures c == "white" <==> playerWhite == "Anonymous"
    ensures c in {"white", "black"}
  {
    if playerWhite == "Anonymous" then "white" else "black"
  }

  /** The colour the human has in every engine game: the creator is always
      `playerWhite` and the engine always `playerBlack`. */
  function PlayerColor(playerWhite: string): (c: string)
    ensures c == "white"
  {
    "white"
  }

  /** The initial-state effect with a given colour rule applied. */
  function LoadWith(b: Board, data: ScreenData, color: string): (r: Board)
    ensures r.position == data.currentFen && r.playerColor == color
    ensures r.playerTimes == data.playerTimes.GetOr(PlayerTimes(TenMinutes, TenMinutes))
    ensures r.gameStatus == data.gameStatus && r.winner == data.winner
    ensures r.isGameActive <==> data.gameStatus == "active"
    ensures r.isPlayerTurn == b.isPlayerTurn && r.thinking == b.thinking && r.history == b.history
  {
    b.(position := data.currentFen,
       playerColor := color,
       playerTimes := data.playerTimes.GetOr(PlayerTimes(TenMinutes, TenMinutes)),
       gameStatus := data.gameStatus,
       winner := data.winner,
       isGameActive := data.gameStatus == "active")
  }

  function LoadGameDataAsWritten(b: Board, data: ScreenData): (r: Board)
    ensures r == LoadWith(b, data, PlayerColorAsWritten(data.playerWhite))
    ensures r.playerColor == "black" <==> data.playerWhite != "Anonymous"
  {
    LoadWith(b, data, PlayerColorAsWritten(data.playerWhite))
  }

  /** The initial-state effect with the corrected colour rule; it differs
      from the code as written exactly for a named creator. */
  function LoadGameData(b: Board, data: ScreenData): (r: Board)
    ensures r == LoadWith(b, data, "white")
    ensures r.playerColor == "white"
    ensures r == LoadGameDataAsWritten(b, data) <==> data.playerWhite == "Anonymous"
  {
    LoadWith(b, data, PlayerColor(data.playerWhite))
  }

  // ---------------------------------------------------------------------------
  // Asking the engine

  /** The effect that fires `requestAIMove`. */
  predicate AiTurnPending(b: Board, hasWorker: bool) {
    !b.isPlayerTurn && b.gameStatus == "active" && hasWorker && !b.thinking
  }

  /** `requestAIMove`: when allowed, mark the engine busy and post a
      `position` and a `go` request carrying the difficulty's parameters. */
  function RequestAiMove(b: Board, hasWorker: bool, aiDifficulty: Option<int>, fen: string)
    : (r: (Board, seq<(string, SW.RequestData)>))
    ensures !(hasWorker && !b.thinking && b.gameStatus == "active") ==> r == (b, [])
    ensures hasWorker && !b.thinking && b.gameStatus == "active" ==>
      && r.0 == b.(thinking := true)
      && |r.1| == 2 && r.1[0].0 == "position" && r.1[1].0 == "go"
      && r.1[0].1.fen == Some(fen)
      && var p := ParamsOf(Difficulty(aiDifficulty));
         r.1[1].1.skill == Some(p.skill) && r.1[1].1.depth == Some(p.depth) && r.1[1].1.movetime == Some(p.movetime)
  {
    if hasWorker && !b.thinking && b.gameStatus == "active" then
      var p := ParamsOf(Difficulty(aiDifficulty));
      var none := SW.RequestData(None, None, None, None, None, None, None);
      (b.(thinking := true),
       [("position", none.(fen := Some(fen))),
        ("go", none.(skill := Some(p.skill), depth := Some(p.depth), movetime := Some(p.movetime)))])
    else (b, [])
  }

  /** Fed to a loaded worker, the two requests reach the engine as the
      position, the skill level and a search bounded by both depth and time,
      each number recoverable from the command text. */
  lemma RequestReachesEngine(b: Board, aiDifficulty: Option<int>, fen: string, ready: bool)
    requires !b.thinking && b.gameStatus == "active"
    ensures var (_, reqs) := RequestAiMove(b, true, aiDifficulty, fen);
      var w := SW.Worker(true, ready);
      var sent := SW.OnRequest(w, reqs[0].0, reqs[0].1).sent + SW.OnRequest(w, reqs[1].0, reqs[1].1).sent;
      var p := ParamsOf(Difficulty(aiDifficulty));
      && |sent| == 3
      && sent[0] == SW.PositionCommand(Some(fen), None)
      && sent[1] == SW.SkillPrefix + IntToString(p.skill)
      && MatchNumber(sent[2], "depth ") == Some(p.depth)
      && MatchNumber(sent[2], "movetime ") == Some(p.movetime)
  {
    var p := ParamsOf(Difficulty(aiDifficulty));
    SW.GoCarriesLimits(p.depth, p.movetime);
  }

  /** The squares `makeAIMove` reads from the engine's move text. */
  function AiMoveSquares(uci: string): (m: SW.Move)
    ensures |uci| >= 4 ==> SW.UciToMove(Some(uci)) == Some(m)
  {
    SW.Move(Substring(uci, 0, 2), Substring(uci, 2, 4), if |uci| > 4 then Some(uci[4]) else None)
  }

  // ---------------------------------------------------------------------------
  // Game end

  /** `checkGameEnd` for the position chess.js reports. */
  function CheckGameEnd(b: Board, pos: Position): (r: Board)
    ensures !pos.isGameOver ==> r == b
    ensures pos.isGameOver ==> !r.isGameActive
    ensures pos.isGameOver && pos.isCheckmate ==>
      r.gameStatus == "checkmate" && r.winner == Some(if pos.turn == 'w' then "black" else "white")
    ensures pos.isGameOver && !pos.isCheckmate && pos.isStalemate ==>
      r.gameStatus == "stalemate" && r.winner == Some("draw")
    ensures pos.isGameOver && !pos.isCheckmate && !pos.isStalemate && pos.isDraw ==>
      r.gameStatus == "draw" && r.winner == Some("draw")
    ensures pos.isGameOver && !pos.isCheckmate && !pos.isStalemate && !pos.isDraw ==>
      r == b.(isGameActive := false)
    ensures r.(gameStatus := b.gameStatus, winner := b.winner, isGameActive := b.isGameActive) == b
  {
    if !pos.isGameOver then b
    else
      var b1 := b.(isGameActive := false);
      if pos.isCheckmate then b1.(gameStatus := "checkmate", winner := Some(if pos.turn == 'w' then "black" else "white"))
      else if pos.isStalemate then b1.(gameStatus := "stalemate", winner := Some("draw"))
      else if pos.isDraw then b1.(gameStatus := "draw", winner := Some("draw"))
      else b1
  }

  /** A status/winner pair `checkGameEnd` writes is one the schema accepts,
      and it is a finished status: the side that is mated never wins. */
  lemma GameEndIsFinished(b: Board, pos: Position)
    requires pos.isGameOver && (pos.isCheckmate || pos.isStalemate || pos.isDraw)
    requires pos.turn in {'w', 'b'}
    ensures var r := CheckGameEnd(b, pos);
      && IsStatus(r.gameStatus) && r.gameStatus in FinishedStatuses
      && r.winner.Some? && IsWinner(r.winner.value)
      && (pos.isCheckmate ==> r.winner.value != (if pos.turn == 'w' then "white" else "black"))
  {
  }

  // ---------------------------------------------------------------------------
  // Moves

  /** The three checks `onDrop` makes before asking chess.js. */
  predicate DropAllowed(b: Board, turn: char, piece: string)
    requires |piece| > 0
  {
    var pieceColor := LowerChar(piece[0]);
    && b.isPlayerTurn && b.gameStatus == "active" && !b.thinking
    && !((turn == 'w' && pieceColor != 'w') || (turn == 'b' && pieceColor != 'b'))
    && !((b.playerColor == "white" && turn != 'w') || (b.playerColor == "black" && turn != 'b'))
  }

  /** The board after a move chess.js accepted, before the end check. */
  function AfterMove(b: Board, p: Played, playerMoved: bool): (r: Board)
    ensures r.history == b.history + [p.san] && r.position == p.after.fen
    ensures r.isPlayerTurn == !playerMoved
  {
    var b1 := b.(position := p.after.fen, isPlayerTurn := !playerMoved, history := b.history + [p.san]);
    if playerMoved then b1 else b1.(thinking := false)
  }

  /** `onDrop(source, target, piece)`; `result` is chess.js's answer to the
      move (promotion always to a queen), `None` for a rejected or throwing
      move. It returns whether the drop was accepted. */
  function OnDrop(b: Board, turn: char, piece: string, result: Option<Played>): (r: (bool, Board))
    requires |piece| > 0
    ensures r.0 <==> DropAllowed(b, turn, piece) && result.Some?
    ensures !r.0 ==> r.1 == b
    ensures r.0 ==> r.1 == CheckGameEnd(AfterMove(b, result.value, true), result.value.after)
    ensures r.0 ==> !r.1.isPlayerTurn && |r.1.history| == |b.history| + 1
  {
    if !DropAllowed(b, turn, piece) then (false, b)
    else
      match result
      case None => (false, b)
      case Some(p) => (true, CheckGameEnd(AfterMove(b, p, true), p.after))
  }

  /** No drop is accepted while the engine thinks, while it is not the
      human's turn, once the game is no longer active, or with a piece of
      the colour not to move. */
  lemma DropRejections(b: Board, turn: char, piece: string, result: Option<Played>)
    requires |piece| > 0
    ensures b.thinking || !b.isPlayerTurn || b.gameStatus != "active" ==> !OnDrop(b, turn, piece, result).0
    ensures turn == 'w' && LowerChar(piece[0]) == 'b' ==> !OnDrop(b, turn, piece, result).0
    ensures b.playerColor == "black" && turn == 'w' ==> !OnDrop(b, turn, piece, result).0
  {
  }

  /** `makeAIMove(uci)`: `result` is chess.js's answer to the move read
      from `uci`. */
  function MakeAiMove(b: Board, uci: string, result: Option<Played>): (r: Board)
    ensures result.None? ==> r == b.(thinking := false)
    ensures result.Some? ==> r == CheckGameEnd(AfterMove(b, result.value, false), result.value.after)
    ensures result.Some? ==> r.isPlayerTurn && !r.thinking && r.history == b.history + [result.value.san]
  {
    match result
    case None => b.(thinking := false)
    case Some(p) => CheckGameEnd(AfterMove(b, p, false), p.after)
  }

  /** After an accepted human move in a game that goes on, the engine is
      asked next; after the engine's move the human may drop again. */
  lemma TurnsAlternate(b: Board, turn: char, piece: string, p: Played, uci: string, q: Played)
    requires |piece| > 0
    requires DropAllowed(b, turn, piece)
    requires !p.after.isGameOver && !q.after.isGameOver
    ensures var (_, b1) := OnDrop(b, turn, piece, Some(p));
      && AiTurnPending(b1, true)
      && var b2 := MakeAiMove(RequestAiMove(b1, true, None, p.after.fen).0, uci, Some(q));
         b2.isPlayerTurn && !b2.thinking && b2.gameStatus == "active"
         && |b2.history| == |b.history| + 2
  {
  }

  // ---------------------------------------------------------------------------
  // Resignation and draws

  /** The winner when the human resigns: the colour they are not playing. */
  function ResignWinner(playerColor: string): (w: string)
    ensures w == "black" <==> playerColor == "white"
  {
    if playerColor == "white" then "black" else "white"
  }

  /** `handleResign` after the confirmation dialog: the new board and the
      update sent to the server (`None` when the player cancels). */
  function HandleResign(b: Board, confirmed: bool, fen: string, pgn: string)
    : (r: (Board, Option<GC.UpdateRequest>))
    ensures !confirmed ==> r == (b, None)
    ensures confirmed ==>
      && r.0 == b.(gameStatus := "resigned", winner := Some(ResignWinner(b.playerColor)), isGameActive := false)
      && r.1 == Some(GC.UpdateRequest(Some(fen), Some(pgn), Some("resigned"),
                                      Some(ResignWinner(b.playerColor)), None, Some(b.playerTimes)))
  {
    if !confirmed then (b, None)
    else
      var w := ResignWinner(b.playerColor);
      (b.(gameStatus := "resigned", winner := Some(w), isGameActive := false),
       Some(GC.UpdateRequest(Some(fen), Some(pgn), Some("resigned"), Some(w), None, Some(b.playerTimes))))
  }

  /** The resignation the screen sends is stored as sent: the server's copy
      ends resigned with the same winner as the screen, the move table is
      kept, and the schema accepts it. */
  lemma ResignReachesServer(b: Board, g: Game, fen: string, pgn: string)
    requires Valid(g)
    ensures var (b1, u) := HandleResign(b, true, fen, pgn);
      var g1 := GC.ApplyUpdate(g, u.value);
      && g1.gameStatus == b1.gameStatus == "resigned"
      && g1.winner == b1.winner
      && g1.moves == g.moves
      && Valid(g1)
  {
  }

  /** `handleOfferDraw`: a draw is taken only when chess.js says the
      position is drawn; otherwise nothing changes. */
  function HandleOfferDraw(b: Board, isDraw: bool): (r: Board)
    ensures isDraw ==> r.gameStatus == "draw" && r.winner == Some("draw") && !r.isGameActive
    ensures !isDraw ==> r == b
    ensures r.(gameStatus := b.gameStatus, winner := b.winner, isGameActive := b.isGameActive) == b
  {
    if isDraw then b.(gameStatus := "draw", winner := Some("draw"), isGameActive := false) else b
  }

  // ---------------------------------------------------------------------------
  // Display

  function WinnerName(winner: Option<string>): string {
    if winner == Some("white") then "White" else "Black"
  }

  /** The four statuses the status line announces as an ending. */
  predicate Announced(status: string) {
    status in {"checkmate", "stalemate", "draw", "resigned"}
  }

  /** `getStatusMessage`. */
  function StatusMessage(b: Board): (m: string)
    ensures b.gameStatus == "checkmate" ==>
      m == if b.winner == Some("white") then "Checkmate! White wins!" else "Checkmate! Black wins!"
    ensures b.gameStatus == "stalemate" ==> m == "Game ended in stalemate!"
    ensures b.gameStatus == "draw" ==> m == "Game ended in a draw!"
    ensures b.gameStatus == "resigned" ==>
      m == if b.winner == Some("white") then "Game ended by resignation. White wins!"
           else "Game ended by resignation. Black wins!"
  {
    if b.gameStatus == "checkmate" then "Checkmate! " + WinnerName(b.winner) + " wins!"
    else if b.gameStatus == "stalemate" then "Game ended in stalemate!"
    else if b.gameStatus == "draw" then "Game ended in a draw!"
    else if b.gameStatus == "resigned" then "Game ended by resignation. " + WinnerName(b.winner) + " wins!"
    else if b.thinking then "AI is thinking..."
    else if b.isPlayerTurn then "Your turn (" + b.playerColor + ")"
    else "AI is moving..."
  }

  /** The precedence of the status line: an announced ending hides the turn
      state entirely; otherwise thinking comes before whose turn it is. A
      timed-out game is not announced. */
  lemma StatusPrecedence(b: Board, thinking: bool, isPlayerTurn: bool)
    ensures Announced(b.gameStatus) ==>
      StatusMessage(b) == StatusMessage(b.(thinking := thinking, isPlayerTurn := isPlayerTurn))
    ensures !Announced(b.gameStatus) ==> (StatusMessage(b) == "AI is thinking..." <==> b.thinking)
    ensures !Announced(b.gameStatus) && !b.thinking ==>
      (StatusMessage(b) == "Your turn (" + b.playerColor + ")" <==> b.isPlayerTurn)
    ensures !Announced(b.gameStatus) && !b.thinking ==>
      (StatusMessage(b) == "AI is moving..." <==> !b.isPlayerTurn)
    ensures b.gameStatus in {"checkmate", "resigned"} ==>
      ((StartsWith(StatusMessage(b), "Checkmate! White") || StartsWith(StatusMessage(b), "Game ended by resignation. White"))
       <==> b.winner == Some("white"))
  {
    var m := StatusMessage(b);
    if b.gameStatus == "checkmate" {
      assert m[..16] == "Checkmate! " + WinnerName(b.winner);
      assert m[0] != "Game ended by resignation. White"[0];
      assert m[11] == WinnerName(b.winner)[0];
    } else if b.gameStatus == "resigned" {
      assert m[..32] == "Game ended by resignation. " + WinnerName(b.winner);
      assert m[0] != "Checkmate! White"[0];
      assert m[27] == WinnerName(b.winner)[0];
    } else if !Announced(b.gameStatus) {
      var turn := "Your turn (" + b.playerColor + ")";
      assert turn[0] == 'Y';
    }
  }

  /** The label of the `i`-th history entry: the full-move number, then
      `. ` for a white move or `... ` for a black one, then the SAN. */
  function HistoryLabel(i: nat, san: string): string {
    NatToString(i / 2 + 1) + "." + (if i % 2 == 0 then " " else ".. ") + san
  }

  /** Reads a label back: the move number, whether white moved, the SAN. */
  function ParseLabel(text: string): Option<(nat, bool, string)> {
    var k := DigitRun(text);
    if k == 0 then None
    else
      var rest := text[k..];
      if StartsWith(rest, ". ") then Some((DigitsValue(text[..k]), true, rest[2..]))
      else if StartsWith(rest, "... ") then Some((DigitsValue(text[..k]), false, rest[4..]))
      else None
  }

  /** Every label reads back as its entry: entries `2n` and `2n+1` share
      move number `n+1`, the first is white's and the second black's. */
  lemma LabelRoundTrip(i: nat, san: string)
    ensures ParseLabel(HistoryLabel(i, san)) == Some((i / 2 + 1, i % 2 == 0, san))
  {
    var digits := NatToString(i / 2 + 1);
    var rest := "." + (if i % 2 == 0 then " " else ".. ") + san;
    var t := HistoryLabel(i, san);
    assert t == digits + rest;
    DigitRunOfDigits(digits, rest);
    assert t[..|digits|] == digits;
    assert t[|digits|..] == rest;
    NatRoundTrip(i / 2 + 1);
    if i % 2 == 0 {
      assert rest[..2] == ". ";
      assert rest[2..] == san;
    } else {
      assert rest[..2] == "..";
      assert rest[..4] == "... ";
      assert rest[4..] == san;
    }
  }

  // ---------------------------------------------------------------------------
  // The colour rule

  /** As written, a creator who typed a name plays black on a board where
      white is to move: every drop is refused and the engine is never asked,
      so neither side can ever move. */
  lemma NamedCreatorStuck(data: ScreenData, piece: string, result: Option<Played>, hasWorker: bool)
    requires |piece| > 0
    requires data.gameStatus == "active" && data.playerWhite != "Anonymous"
    ensures var b := LoadGameDataAsWritten(InitialBoard, data);
      && OnDrop(b, 'w', piece, result) == (false, b)
      && !AiTurnPending(b, hasWorker)
  {
  }

  /** With the human always white, the creator's first white move is
      accepted whatever name they typed, and the engine is asked next. */
  lemma CreatorMovesFirst(data: ScreenData, san: string, after: Position)
    requires data.gameStatus == "active"
    requires !after.isGameOver
    ensures var b := LoadGameData(InitialBoard, data);
      && OnDrop(b, 'w', "wP", Some(Played(san, after))).0
      && AiTurnPending(OnDrop(b, 'w', "wP", Some(Played(san, after))).1, true)
  {
  }
}

=== FILE: game_controller.dfy ===
/** The REST handlers of backend/controllers/gameController.js as pure
    transitions over the collection: each takes the store and the request's
    fields and returns the new store with the HTTP reply. The identifiers the
    source draws from `Math.random`/`Date.now` and the creation timestamp are
    parameters. */
module GameController {
  import opened Wrappers
  import opened JsText
  import opened GameModel
  import opened GameStore

  /** A reply: `{success: true, ...}` with its payload, or
      `{success: false, message}`. */
  datatype Reply<T> = Ok(status: int, value: T) | Fail(status: int, message: string)

  // ---------------------------------------------------------------------------
  // createGame

  /** The body fields createGame reads; absent ones are `None`. */
  datatype CreateRequest = CreateRequest(
    gameType: Option<string>,
    playerWhite: Option<string>,
    playerBlack: Option<string>,
    aiDifficulty: Option<int>,
    timeControl: Option<TimeControl>)

  /** The `game` object of createGame's 201 reply. */
  datatype CreatedGame = CreatedGame(
    gameId: string,
    gameType: string,
    roomId: Option<string>,
    currentFen: string,
    playerWhite: string,
    playerBlack: string,
    gameStatus: string,
    aiDifficulty: int,
    timeControl: TimeControl)

  /** The record createGame hands to the `Game` constructor. */
  function BuildGameData(req: CreateRequest, gameId: string, roomId: string): (d: GameData)
    ensures d.playerWhite != "" && d.playerBlack != ""
    ensures Truthy(req.playerWhite) ==> d.playerWhite == req.playerWhite.value
    ensures req.gameType != Some("ai") && Truthy(req.playerBlack) ==> d.playerBlack == req.playerBlack.value
    ensures req.gameType == Some("ai") ==> d.aiDifficulty.Some? && d.aiDifficulty.value != 0
    ensures req.gameType != Some("ai") ==> d.aiDifficulty.None?
    ensures d.roomId.Some? <==> req.gameType == Some("pvp")
  {
    GameData(
      gameId := gameId,
      gameType := req.gameType,
      playerWhite := OrElse(req.playerWhite, "Anonymous"),
      playerBlack := if req.gameType == Some("ai") then "Stockfish AI" else OrElse(req.playerBlack, "Anonymous"),
      aiDifficulty := if req.gameType == Some("ai") then
                        Some(if IntTruthy(req.aiDifficulty) then req.aiDifficulty.value else DefaultDifficulty)
                      else None,
      timeControl := req.timeControl.GetOr(TimeControl(TenMinutes, 0)),
      roomId := if req.gameType == Some("pvp") then Some(roomId) else None)
  }

  function Created(g: Game): CreatedGame {
    CreatedGame(g.gameId, g.gameType, g.roomId, g.currentFen, g.playerWhite,
                g.playerBlack, g.gameStatus, g.aiDifficulty, g.timeControl)
  }

  /** POST /games. `gameId` stands for the generated game id, `roomDraw`
      for the random draw `generateRoomId` upper-cases behind `room_`, and
      `now` for the creation timestamp. The new document is appended and
      summarised with 201; a document the schema or the unique index rejects
      yields 500 and leaves the collection as it was. */
  function CreateGame(store: Store, req: CreateRequest, gameId: string, roomDraw: string, now: int)
    : (r: (Store, Reply<CreatedGame>))
    ensures r.1.Ok? <==>
      && gameId != ""
      && req.gameType.Some? && IsGameType(req.gameType.value)
      && (req.gameType == Some("ai") ==> !IntTruthy(req.aiDifficulty) || 1 <= req.aiDifficulty.value <= 20)
      && forall j :: 0 <= j < |store| ==> store[j].gameId != gameId
    ensures r.1.Fail? ==> r.0 == store && r.1 == Fail(500, "Failed to create game")
    ensures r.1.Ok? ==>
      && r.1.status == 201
      && |r.0| == |store| + 1 && r.0[..|store|] == store
      && var g := r.0[|store|];
         && r.1.value == Created(g)
         && g.gameId == gameId && g.gameType == req.gameType.value
         && g.playerWhite == OrElse(req.playerWhite, "Anonymous")
         && g.playerBlack == (if g.gameType == "ai" then "Stockfish AI" else OrElse(req.playerBlack, "Anonymous"))
         && g.aiDifficulty == (if g.gameType == "ai" && IntTruthy(req.aiDifficulty) then req.aiDifficulty.value else DefaultDifficulty)
         && g.timeControl == req.timeControl.GetOr(TimeControl(TenMinutes, 0))
         && (g.roomId.Some? <==> g.gameType == "pvp")
         && (g.roomId.Some? ==> g.roomId.value == GenerateRoomId(roomDraw))
         && g.gameStatus == "active" && g.winner.None? && g.moves == []
         && g.createdAt == now
    ensures Invariant(store) ==> Invariant(r.0)
    ensures RoomIdsGenerated(store) ==> RoomIdsGenerated(r.0)
  {
    var g := NewGame(BuildGameData(req, gameId, GenerateRoomId(roomDraw)), now);
    match Insert(store, g)
    case Some(s) =>
      assert s[..|store|] == store;
      (s, Ok(201, Created(g)))
    case None => (store, Fail(500, "Failed to create game"))
  }

  // ---------------------------------------------------------------------------
  // getGame

  /** The lookup getGame performs: by `roomId` for `type === 'room'`, by
      `gameId` for anything else, an absent type included. */
  function LookupKey(id: string, queryType: Option<string>): Key {
    if queryType == Some("room") then ByRoomId(id) else ByGameId(id)
  }

  /** GET /games/:id?type=... */
  function GetGame(store: Store, id: string, queryType: Option<string>): (r: Reply<Game>)
    ensures r.Fail? <==> NoMatch(store, LookupKey(id, queryType))
    ensures r.Fail? ==> r == Fail(404, "Game not found")
    ensures r.Ok? ==> (r.status == 200 &&
      exists i :: IsFirstMatch(store, LookupKey(id, queryType), i) && r.value == store[i])
    ensures r.Ok? && queryType == Some("room") ==> r.value.roomId == Some(id)
    ensures r.Ok? && queryType != Some("room") ==> r.value.gameId == id
  {
    match Find(store, LookupKey(id, queryType))
    case Some(i) => Ok(200, store[i])
    case None => Fail(404, "Game not found")
  }

  // ---------------------------------------------------------------------------
  // updateGame

  /** The body fields updateGame reads. */
  datatype UpdateRequest = UpdateRequest(
    currentFen: Option<string>,
    pgn: Option<string>,
    gameStatus: Option<string>,
    winner: Option<string>,
    moves: Option<seq<MoveEntry>>,
    playerTimes: Option<PlayerTimes>)

  /** The in-memory edits: each field is overwritten only by a truthy value
      (a present array or object is truthy even when empty). */
  function ApplyUpdate(g: Game, u: UpdateRequest): Game {
    g.(currentFen := if Truthy(u.currentFen) then u.currentFen.value else g.currentFen,
       pgn := if Truthy(u.pgn) then u.pgn.value else g.pgn,
       gameStatus := if Truthy(u.gameStatus) then u.gameStatus.value else g.gameStatus,
       winner := if Truthy(u.winner) then u.winner else g.winner,
       moves := if u.moves.Some? then u.moves.value else g.moves,
       playerTimes := if u.playerTimes.Some? then u.playerTimes.value else g.playerTimes)
  }

  /** PUT /games/:id */
  function UpdateGame(store: Store, id: string, u: UpdateRequest): (r: (Store, Reply<Game>))
    ensures r.1.Fail? ==> r.0 == store
    ensures r.1 == Fail(404, "Game not found") <==> NoMatch(store, ByGameId(id))
    ensures r.1.Ok? ==> (r.1.status == 200 &&
      exists i :: IsFirstMatch(store, ByGameId(id), i) && r.0 == store[i := r.1.value] &&
        var old_ := store[i];
        var g := r.1.value;
        && g.currentFen == (if Truthy(u.currentFen) then u.currentFen.value else old_.currentFen)
        && g.pgn == (if Truthy(u.pgn) then u.pgn.value else old_.pgn)
        && g.gameStatus == (if Truthy(u.gameStatus) then u.gameStatus.value else old_.gameStatus)
        && g.winner == (if Truthy(u.winner) then u.winner else old_.winner)
        && g.moves == (if u.moves.Some? then u.moves.value else old_.moves)
        && g.playerTimes == (if u.playerTimes.Some? then u.playerTimes.value else old_.playerTimes)
        && g.(currentFen := old_.currentFen, pgn := old_.pgn, gameStatus := old_.gameStatus,
              winner := old_.winner, moves := old_.moves, playerTimes := old_.playerTimes) == old_)
    ensures r.1.Fail? && r.1.status != 404 ==> r.1 == Fail(500, "Failed to update game")
    ensures Invariant(store) ==> Invariant(r.0)
  {
    match Find(store, ByGameId(id))
    case None => (store, Fail(404, "Game not found"))
    case Some(i) =>
      var g := ApplyUpdate(store[i], u);
      match Save(store, i, g)
      case Some(s) => (s, Ok(200, g))
      case None => (store, Fail(500, "Failed to update game"))
  }

  /** A valid game updated with valid values saves; an unrecognised status
      makes the schema reject the save and the collection stays unchanged. */
  lemma UpdateValidation(store: Store, id: string, u: UpdateRequest)
    requires Invariant(store)
    requires !NoMatch(store, ByGameId(id))
    ensures !Truthy(u.gameStatus) || IsStatus(u.gameStatus.value) ==>
              !Truthy(u.winner) || IsWinner(u.winner.value) ==>
              UpdateGame(store, id, u).1.Ok?
    ensures Truthy(u.gameStatus) && !IsStatus(u.gameStatus.value) ==>
              UpdateGame(store, id, u) == (store, Fail(500, "Failed to update game"))
  {
    var i := Find(store, ByGameId(id)).value;
    assert store[i].gameId == id;
  }

  // ---------------------------------------------------------------------------
  // getRecentGames

  /** The fields the recent-games query selects. */
  datatype Listing = Listing(
    gameId: string,
    gameType: string,
    playerWhite: string,
    playerBlack: string,
    gameStatus: string,
    winner: Option<string>,
    createdAt: int)

  function ToListing(g: Game): Listing {
    Listing(g.gameId, g.gameType, g.playerWhite, g.playerBlack, g.gameStatus, g.winner, g.createdAt)
  }

  predicate NewestFirst(s: seq<Game>) {
    forall i, j :: 0 <= i < j < |s| ==> s[i].createdAt >= s[j].createdAt
  }

  /** The documents of `s` of type `t`, in collection order. */
  function OfType(s: seq<Game>, t: string): (r: seq<Game>)
    ensures forall i :: 0 <= i < |r| ==> r[i].gameType == t && r[i] in s
    ensures forall g :: multiset(r)[g] == if g.gameType == t then multiset(s)[g] else 0
    decreases |s|
  {
    if |s| == 0 then []
    else
      assert s == [s[0]] + s[1..];
      (if s[0].gameType == t then [s[0]] else []) + OfType(s[1..], t)
  }

  lemma NewestCons(g: Game, s: seq<Game>)
    requires NewestFirst(s)
    requires forall x :: x in s ==> x.createdAt <= g.createdAt
    ensures NewestFirst([g] + s)
  {
    forall i, j | 0 <= i < j < |s| + 1
      ensures ([g] + s)[i].createdAt >= ([g] + s)[j].createdAt
    {
      if i > 0 {
        assert ([g] + s)[i] == s[i - 1];
      }
      assert ([g] + s)[j] == s[j - 1];
    }
  }

  function InsertNewest(g: Game, s: seq<Game>): (r: seq<Game>)
    requires NewestFirst(s)
    ensures NewestFirst(r)
    ensures multiset(r) == multiset(s) + multiset{g}
    ensures forall x :: x in r ==> x == g || x in s
    decreases |s|
  {
    if |s| == 0 then [g]
    else if g.createdAt >= s[0].createdAt then [g] + s
    else
      var t := InsertNewest(g, s[1..]);
      assert forall x :: x in t ==> x.createdAt <= s[0].createdAt;
      assert s == [s[0]] + s[1..];
      NewestCons(s[0], t);
      [s[0]] + t
  }

  /** `.sort({createdAt: -1})`; ties come in an order the database does not
      promise, so no contract mentions it. */
  function SortNewest(s: seq<Game>): (r: seq<Game>)
    ensures NewestFirst(r)
    ensures multiset(r) == multiset(s)
    decreases |s|
  {
    if |s| == 0 then []
    else
      assert s == [s[0]] + s[1..];
      InsertNewest(s[0], SortNewest(s[1..]))
  }

  /** How many documents `.limit(n)` lets through out of `count`: a limit of
      0 means no limit, a negative one caps at its magnitude. */
  function LimitCount(n: int, count: nat): (k: nat)
    ensures k <= count
    ensures n == 0 ==> k == count
    ensures n != 0 ==> k == if count < (if n < 0 then -n else n) then count else (if n < 0 then -n else n)
  {
    var cap := if n < 0 then -n else n;
    if n == 0 || count < cap then count else cap
  }

  /** The documents GET /games returns, before projection: those of the
      requested type (every type when the parameter is falsy), newest first,
      at most `limit` (10 by default) of them. */
  function RecentGames(store: Store, limit: Option<int>, gameType: Option<string>): (r: seq<Game>)
    ensures forall i :: 0 <= i < |r| ==> r[i] in store
    ensures Truthy(gameType) ==> forall i :: 0 <= i < |r| ==> r[i].gameType == gameType.value
    ensures NewestFirst(r)
    ensures var pool := Pool(store, gameType);
      && |r| == LimitCount(limit.GetOr(10), |pool|)
      && multiset(r) <= multiset(pool)
      && forall g, i :: g in multiset(pool) - multiset(r) && 0 <= i < |r| ==> g.createdAt <= r[i].createdAt
  {
    var pool := Pool(store, gameType);
    var sorted := SortNewest(pool);
    var k := LimitCount(limit.GetOr(10), |pool|);
    TopOfSorted(sorted, k);
    MembersOfSubMultiset(sorted[..k], pool);
    sorted[..k]
  }

  /** The documents the type filter lets through. */
  function Pool(store: Store, gameType: Option<string>): (r: seq<Game>)
    ensures forall i :: 0 <= i < |r| ==> r[i] in store
    ensures Truthy(gameType) ==> forall i :: 0 <= i < |r| ==> r[i].gameType == gameType.value
  {
    if Truthy(gameType) then OfType(store, gameType.value) else store
  }

  lemma MembersOfSubMultiset(a: seq<Game>, b: seq<Game>)
    requires multiset(a) <= multiset(b)
    ensures forall i :: 0 <= i < |a| ==> a[i] in b
  {
    forall i | 0 <= i < |a| ensures a[i] in b {
      assert a[i] in multiset(a);
    }
  }

  /** The first `k` of a newest-first list are at least as new as the rest. */
  lemma TopOfSorted(sorted: seq<Game>, k: nat)
    requires NewestFirst(sorted) && k <= |sorted|
    ensures NewestFirst(sorted[..k])
    ensures multiset(sorted[..k]) <= multiset(sorted)
    ensures forall g, i :: g in multiset(sorted) - multiset(sorted[..k]) && 0 <= i < k ==>
      g.createdAt <= sorted[i].createdAt
  {
    assert sorted == sorted[..k] + sorted[k..];
    assert multiset(sorted) == multiset(sorted[..k]) + multiset(sorted[k..]);
    forall g, i | g in multiset(sorted) - multiset(sorted[..k]) && 0 <= i < k
      ensures g.createdAt <= sorted[i].createdAt
    {
      assert g in multiset(sorted[k..]);
      var j :| 0 <= j < |sorted[k..]| && sorted[k..][j] == g;
      assert sorted[k + j] == g;
    }
  }

  /** GET /games?limit=...&gameType=... */
  function GetRecentGames(store: Store, limit: Option<int>, gameType: Option<string>): (r: Reply<seq<Listing>>)
    ensures r.Ok? && r.status == 200
    ensures var games := RecentGames(store, limit, gameType);
      |r.value| == |games| && forall i :: 0 <= i < |games| ==> r.value[i] == ToListing(games[i])
  {
    var games := RecentGames(store, limit, gameType);
    Ok(200, seq(|games|, i requires 0 <= i < |games| => ToListing(games[i])))
  }

  // ---------------------------------------------------------------------------
  // joinRoom

  datatype JoinResult = JoinResult(game: Game, assignedColor: string)

  /** POST /games/room/:roomId/join. The black seat is taken only while it
      holds 'Anonymous' or nothing; the caller is told 'black' exactly when
      the black seat then carries its name. */
  function JoinRoom(store: Store, roomId: string, playerName: Option<string>): (r: (Store, Reply<JoinResult>))
    ensures r.1 == Fail(404, "Room not found") <==> NoMatch(store, ByRoomId(roomId))
    ensures r.1 == Fail(400, "Game is not active") <==>
      exists i :: IsFirstMatch(store, ByRoomId(roomId), i) && store[i].gameStatus != "active"
    ensures r.1.Fail? ==> r.0 == store
    ensures r.1.Ok? ==> (r.1.status == 200 &&
      exists i :: IsFirstMatch(store, ByRoomId(roomId), i)
        && store[i].gameStatus == "active"
        && r.0 == store[i := r.1.value.game]
        && var seatFree := store[i].playerBlack == "Anonymous" || store[i].playerBlack == "";
           && r.1.value.game == (if seatFree then store[i].(playerBlack := OrElse(playerName, "Anonymous")) else store[i]))
    ensures r.1.Ok? ==>
      (r.1.value.assignedColor == "black" <==> playerName == Some(r.1.value.game.playerBlack))
    ensures r.1.Ok? ==> r.1.value.assignedColor in {"black", "white"}
    ensures Invariant(store) ==> Invariant(r.0)
    ensures RoomIdsGenerated(store) ==> RoomIdsGenerated(r.0)
  {
    match Find(store, ByRoomId(roomId))
    case None => (store, Fail(404, "Room not found"))
    case Some(i) =>
      var g := store[i];
      if g.gameStatus != "active" then (store, Fail(400, "Game is not active"))
      else if g.playerBlack == "Anonymous" || g.playerBlack == "" then
        var g' := g.(playerBlack := OrElse(playerName, "Anonymous"));
        match Save(store, i, g')
        case Some(s) => (s, Ok(200, JoinResult(g', AssignedColor(g', playerName))))
        case None => (store, Fail(500, "Failed to join room"))
      else
        assert store[i := g] == store;
        (store, Ok(200, JoinResult(g, AssignedColor(g, playerName))))
  }

  function AssignedColor(g: Game, playerName: Option<string>): string {
    if playerName == Some(g.playerBlack) then "black" else "white"
  }

  /** On a well-formed collection joinRoom never fails with 500, and a
      named player joining an open seat is told 'black'. */
  lemma JoinOpenSeat(store: Store, roomId: string, name: string)
    requires Invariant(store)
    requires !NoMatch(store, ByRoomId(roomId))
    ensures JoinRoom(store, roomId, Some(name)).1.Fail? ==>
      JoinRoom(store, roomId, Some(name)).1.status == 400
    ensures var i := Find(store, ByRoomId(roomId)).value;
      store[i].gameStatus == "active" && store[i].playerBlack == "Anonymous" && name != "" ==>
      JoinRoom(store, roomId, Some(name)).1.Ok? &&
      JoinRoom(store, roomId, Some(name)).1.value.assignedColor == "black"
  {
    var i := Find(store, ByRoomId(roomId)).value;
    assert Valid(store[i]);
  }

  // ---------------------------------------------------------------------------
  // deleteGame

  /** DELETE /games/:id */
  function DeleteGame(store: Store, id: string): (r: (Store, Reply<string>))
    ensures r.1.Fail? <==> NoMatch(store, ByGameId(id))
    ensures r.1.Fail? ==> r.0 == store && r.1 == Fail(404, "Game not found")
    ensures r.1.Ok? ==>
      && r.1 == Ok(200, "Game deleted successfully")
      && |r.0| == |store| - 1
      && exists i :: IsFirstMatch(store, ByGameId(id), i) && multiset(r.0) + multiset{store[i]} == multiset(store)
    ensures r.1.Ok? && Invariant(store) ==> NoMatch(r.0, ByGameId(id))
    ensures Invariant(store) ==> Invariant(r.0)
  {
    match Find(store, ByGameId(id))
    case None => (store, Fail(404, "Game not found"))
    case Some(i) => (Remove(store, i), Ok(200, "Game deleted successfully"))
  }
}

=== FILE: game_model.dfy ===
/** The backend's `Game` document (backend/models/Game.js): its fields, the
    schema defaults a new document receives, the validation Mongoose runs on
    every save, and the two document methods `addMove` and `isFinished`. */
module GameModel {
  import opened Wrappers
  import opened JsText

  /** Standard chess start position, the schema default for `currentFen`. */
  const StartFen: string := "rnbqkbnr/pppppppp/8/8/8/8/PPPPPPPP/RNBQKBNR w KQkq - 0 1"

  /** Ten minutes in milliseconds: default clock and default initial time. */
  const TenMinutes: int := 600000

  const DefaultDifficulty: int := 10

  /** The statuses `isFinished` treats as over, in the order the source lists them. */
  const FinishedStatuses: seq<string> := ["checkmate", "stalemate", "draw", "resigned", "timeout"]

  /** One row of the move table; `white`/`black` are `None` for `null`. */
  datatype MoveEntry = MoveEntry(moveNumber: int, white: Option<string>, black: Option<string>)

  datatype TimeControl = TimeControl(initial: int, increment: int)

  datatype PlayerTimes = PlayerTimes(white: int, black: int)

  /** A stored game document. `createdAt` is the timestamp Mongoose adds;
      `winner` is `None` for `null`. */
  datatype Game = Game(
    gameId: string,
    gameType: string,
    playerWhite: string,
    playerBlack: string,
    currentFen: string,
    moves: seq<MoveEntry>,
    pgn: string,
    gameStatus: string,
    winner: Option<string>,
    aiDifficulty: int,
    timeControl: TimeControl,
    playerTimes: PlayerTimes,
    roomId: Option<string>,
    isPrivate: bool,
    spectators: seq<string>,
    createdAt: int)

  predicate IsGameType(t: string) {
    t == "ai" || t == "pvp" || t == "local"
  }

  predicate IsStatus(s: string) {
    s == "active" || s == "checkmate" || s == "stalemate" || s == "draw"
    || s == "resigned" || s == "timeout"
  }

  predicate IsWinner(w: string) {
    w == "white" || w == "black" || w == "draw"
  }

  /** What the schema's validators accept: a non-empty `gameId` (required),
      a `gameType` from its enum (required), a `gameStatus` from its enum,
      a `winner` from its enum or null, and `aiDifficulty` within 1..20. */
  predicate Valid(g: Game) {
    && g.gameId != ""
    && IsGameType(g.gameType)
    && IsStatus(g.gameStatus)
    && (g.winner.None? || IsWinner(g.winner.value))
    && 1 <= g.aiDifficulty <= 20
  }

  /** The fields a caller hands to the `Game` constructor; absent ones are
      `None` and receive the schema default. */
  datatype GameData = GameData(
    gameId: string,
    gameType: Option<string>,
    playerWhite: string,
    playerBlack: string,
    aiDifficulty: Option<int>,
    timeControl: TimeControl,
    roomId: Option<string>)

  /** A new document: the given fields plus every schema default. An absent
      `gameType` is stored as the empty string, which the required validator
      rejects just as it rejects a missing one. */
  function NewGame(data: GameData, createdAt: int): (g: Game)
    ensures g.gameStatus == "active" && g.winner.None?
    ensures g.playerTimes == PlayerTimes(TenMinutes, TenMinutes)
    ensures g.currentFen == StartFen && g.moves == [] && g.pgn == ""
    ensures g.aiDifficulty == data.aiDifficulty.GetOr(DefaultDifficulty)
    ensures Valid(g) <==>
      && data.gameId != ""
      && data.gameType.Some? && IsGameType(data.gameType.value)
      && 1 <= data.aiDifficulty.GetOr(DefaultDifficulty) <= 20
    ensures !IsFinished(g)
  {
    Game(
      gameId := data.gameId,
      gameType := data.gameType.GetOr(""),
      playerWhite := data.playerWhite,
      playerBlack := data.playerBlack,
      currentFen := StartFen,
      moves := [],
      pgn := "",
      gameStatus := "active",
      winner := None,
      aiDifficulty := data.aiDifficulty.GetOr(DefaultDifficulty),
      timeControl := data.timeControl,
      playerTimes := PlayerTimes(TenMinutes, TenMinutes),
      roomId := data.roomId,
      isPrivate := false,
      spectators := [],
      createdAt := createdAt)
  }

  /** The shape of every room id the server generates: the lower-case
      prefix `room_`. */
  predicate GeneratedRoomId(id: string) {
    |id| >= 5 && id[..5] == "room_"
  }

  /** `Game.generateRoomId()`: `room_` followed by the random draw, upper-cased.
      The draw (up to eight base-36 digits in the source) is a parameter. */
  function GenerateRoomId(draw: string): (id: string)
    ensures GeneratedRoomId(id) && |id| == 5 + |draw|
    ensures forall i :: 5 <= i < |id| ==> !IsLowerAscii(id[i]) && UpperChar(id[i]) == UpperChar(draw[i - 5])
  {
    "room_" + ToUpperAscii(draw)
  }

  /** `game.isFinished()`. */
  predicate IsFinished(g: Game) {
    g.gameStatus in FinishedStatuses
  }

  /** On a valid document, `isFinished` holds exactly when the status is not
      `active`; for the five listed statuses it holds whatever the document. */
  lemma FinishedIffNotActive(g: Game)
    ensures IsFinished(g) <==>
      g.gameStatus in {"checkmate", "stalemate", "draw", "resigned", "timeout"}
    ensures Valid(g) ==> (IsFinished(g) <==> g.gameStatus != "active")
  {
  }

  // ---------------------------------------------------------------------------
  // addMove

  /** `i` is the first row numbered `n`. */
  predicate IsFirstRow(moves: seq<MoveEntry>, n: int, i: int) {
    && 0 <= i < |moves|
    && moves[i].moveNumber == n
    && forall j :: 0 <= j < i ==> moves[j].moveNumber != n
  }

  predicate HasRow(moves: seq<MoveEntry>, n: int) {
    exists i :: 0 <= i < |moves| && moves[i].moveNumber == n
  }

  /** `moves.findIndex(m => m.moveNumber === n)`, `None` for -1. */
  function FindRow(moves: seq<MoveEntry>, n: int): (r: Option<nat>)
    ensures r.Some? ==> IsFirstRow(moves, n, r.value)
    ensures r.None? ==> !HasRow(moves, n)
    decreases |moves|
  {
    if |moves| == 0 then None
    else if moves[0].moveNumber == n then Some(0)
    else
      match FindRow(moves[1..], n)
      case None => None
      case Some(k) => Some(k + 1)
  }

  /** `game.addMove(moveNumber, whiteMove, blackMove)` on the move table:
      the first row with that number has each half overwritten only by a
      truthy argument; without such a row, one row is appended. */
  function AddMove(moves: seq<MoveEntry>, n: int, white: Option<string>, black: Option<string>)
    : (r: seq<MoveEntry>)
    ensures HasRow(moves, n) ==>
      && |r| == |moves|
      && exists i :: IsFirstRow(moves, n, i)
           && r[i] == MoveEntry(n, if Truthy(white) then white else moves[i].white,
                                   if Truthy(black) then black else moves[i].black)
           && forall j :: 0 <= j < |moves| && j != i ==> r[j] == moves[j]
    ensures !HasRow(moves, n) ==> r == moves + [MoveEntry(n, white, black)]
  {
    match FindRow(moves, n)
    case Some(i) =>
      var row := moves[i];
      moves[i := MoveEntry(n, if Truthy(white) then white else row.white,
                              if Truthy(black) then black else row.black)]
    case None =>
      moves + [MoveEntry(n, white, black)]
  }

  /** `addMove` on a whole document: only the move table changes. */
  function GameAddMove(g: Game, n: int, white: Option<string>, black: Option<string>): (r: Game)
    ensures r.moves == AddMove(g.moves, n, white, black)
    ensures r.(moves := g.moves) == g
  {
    g.(moves := AddMove(g.moves, n, white, black))
  }

  predicate DistinctNumbers(moves: seq<MoveEntry>) {
    forall i, j :: 0 <= i < j < |moves| ==> moves[i].moveNumber != moves[j].moveNumber
  }

  /** After `addMove(n, w, b)` the table has a row numbered `n` whose white
      half is `w` when `w` is truthy; row numbers that were distinct stay
      distinct. */
  lemma AddMoveRecordsRow(moves: seq<MoveEntry>, n: int, white: Option<string>, black: Option<string>)
    ensures HasRow(AddMove(moves, n, white, black), n)
    ensures Truthy(white) ==>
      exists i :: 0 <= i < |AddMove(moves, n, white, black)|
        && AddMove(moves, n, white, black)[i].moveNumber == n
        && AddMove(moves, n, white, black)[i].white == white
    ensures DistinctNumbers(moves) ==> DistinctNumbers(AddMove(moves, n, white, black))
  {
    var r := AddMove(moves, n, white, black);
    if HasRow(moves, n) {
      var i :| IsFirstRow(moves, n, i) && r[i].moveNumber == n
        && (Truthy(white) ==> r[i].white == white)
        && forall j :: 0 <= j < |moves| && j != i ==> r[j] == moves[j];
      assert r[i].moveNumber == n;
    } else {
      assert r[|moves|].moveNumber == n;
      assert r[|moves|].white == white;
    }
  }
}

=== FILE: game_store.dfy ===
/** The `games` collection the backend reads and writes through Mongoose,
    reduced to what the handlers use: `findOne` on `gameId` or `roomId`
    (first document in natural order), `save` of a new or edited document
    (schema validation plus the unique index on `gameId`), and
    `findOneAndDelete`. */
module GameStore {
  import opened Wrappers
  import opened GameModel

  /** The collection, in natural (insertion) order. */
  type Store = seq<Game>

  /** The two lookups the handlers perform. */
  datatype Key = ByGameId(id: string) | ByRoomId(id: string)

  predicate Matches(g: Game, k: Key) {
    match k
    case ByGameId(id) => g.gameId == id
    case ByRoomId(id) => g.roomId == Some(id)
  }

  /** `i` is the document `findOne` returns for `k`. */
  predicate IsFirstMatch(s: Store, k: Key, i: int) {
    && 0 <= i < |s|
    && Matches(s[i], k)
    && forall j :: 0 <= j < i ==> !Matches(s[j], k)
  }

  predicate NoMatch(s: Store, k: Key) {
    forall j :: 0 <= j < |s| ==> !Matches(s[j], k)
  }

  /** Every room id in the collection has the generated shape. */
  predicate RoomIdsGenerated(s: Store) {
    forall j :: 0 <= j < |s| && s[j].roomId.Some? ==> GeneratedRoomId(s[j].roomId.value)
  }

  /** `Game.findOne(k)`, as an index into the collection. */
  function Find(s: Store, k: Key): (r: Option<nat>)
    ensures r.Some? ==> IsFirstMatch(s, k, r.value)
    ensures r.None? ==> NoMatch(s, k)
    decreases |s|
  {
    if |s| == 0 then None
    else if Matches(s[0], k) then Some(0)
    else
      match Find(s[1..], k)
      case None => None
      case Some(i) => Some(i + 1)
  }

  predicate UniqueIds(s: Store) {
    forall i, j :: 0 <= i < j < |s| ==> s[i].gameId != s[j].gameId
  }

  /** What every stored document satisfies: the schema's validators and the
      unique index on `gameId`. */
  predicate Invariant(s: Store) {
    && (forall i :: 0 <= i < |s| ==> Valid(s[i]))
    && UniqueIds(s)
  }

  /** `doc.save()` for the document at index `i` after in-memory edits:
      rejected when a validator fails or another document holds the same
      `gameId`; otherwise the edited document replaces the stored one. */
  function Save(s: Store, i: nat, g: Game): (r: Option<Store>)
    requires i < |s|
    ensures r.Some? <==> Valid(g) && forall j :: 0 <= j < |s| && j != i ==> s[j].gameId != g.gameId
    ensures r.Some? ==> r.value == s[i := g]
    ensures r.Some? && Invariant(s) ==> Invariant(r.value)
  {
    if Valid(g) && forall j :: 0 <= j < |s| && j != i ==> s[j].gameId != g.gameId then
      Some(s[i := g])
    else None
  }

  /** `new Game(...).save()`: rejected on a failing validator or a duplicate
      `gameId`; otherwise the document joins the collection at the end. */
  function Insert(s: Store, g: Game): (r: Option<Store>)
    ensures r.Some? <==> Valid(g) && forall j :: 0 <= j < |s| ==> s[j].gameId != g.gameId
    ensures r.Some? ==> r.value == s + [g]
    ensures r.Some? && Invariant(s) ==> Invariant(r.value)
  {
    if Valid(g) && forall j :: 0 <= j < |s| ==> s[j].gameId != g.gameId then
      Some(s + [g])
    else None
  }

  /** The index in the collection of the `j`-th document left after
      deleting the one at `i`. */
  function Skip(i: nat, j: nat): nat {
    if j < i then j else j + 1
  }

  lemma RemoveKeeps(s: Store, i: nat, r: Store)
    requires i < |s| && r == s[..i] + s[i + 1..]
    ensures Invariant(s) ==> Invariant(r)
    ensures Invariant(s) ==> forall j :: 0 <= j < |r| ==> r[j].gameId != s[i].gameId
  {
    assert forall j :: 0 <= j < |r| ==> r[j] == s[Skip(i, j)];
  }

  /** Deletion of the document at index `i`; the others keep their order. */
  function Remove(s: Store, i: nat): (r: Store)
    requires i < |s|
    ensures |r| == |s| - 1
    ensures multiset(r) + multiset{s[i]} == multiset(s)
    ensures Invariant(s) ==> Invariant(r)
    ensures Invariant(s) ==> forall j :: 0 <= j < |r| ==> r[j].gameId != s[i].gameId
  {
    assert s == s[..i] + [s[i]] + s[i + 1..];
    var r := s[..i] + s[i + 1..];
    RemoveKeeps(s, i, r);
    r
  }
}

=== FILE: home_page.dfy ===
/** The landing page (frontend/src/pages/HomePage.js): the create and join
    flows composed with the server handlers they call, the status text of a
    recent game, and the room-id field. The page's loading flag and
    rendering are not modelled; the outcome of each flow is the error line
    it leaves and the game it opens. */
module HomePage {
  import opened Wrappers
  import opened JsText
  import opened GameModel
  import opened GameStore
  import GC = GameController
  import Board = ChessboardAi

  // ---------------------------------------------------------------------------
  // Status text of a recent game

  const GreenCircle: string := "\U{1F7E2}"
  const Chequered: string := "\U{1F3C1}"
  const Handshake: string := "\U{1F91D}"
  const WhiteFlag: string := "\U{1F3F3}\U{FE0F}"
  const StopButton: string := "\U{23F9}\U{FE0F}"

  /** Template rendering of a stored winner: `null` when there is none. */
  function ShowWinner(w: Option<string>): string {
    if w.Some? then w.value else "null"
  }

  /** The four statuses with their own text. */
  predicate HasOwnText(status: string) {
    status in {"active", "checkmate", "draw", "resigned"}
  }

  /** `getGameStatusDisplay(game)`. */
  function GameStatusDisplay(status: string, winner: Option<string>): (d: string)
    ensures status == "active" ==> d == GreenCircle + " Active"
    ensures status == "draw" ==> d == Handshake + " Draw"
  {
    if status == "active" then GreenCircle + " Active"
    else if status == "checkmate" then Chequered + " Checkmate - " + ShowWinner(winner) + " wins"
    else if status == "draw" then Handshake + " Draw"
    else if status == "resigned" then WhiteFlag + " " + ShowWinner(winner) + " wins by resignation"
    else StopButton + " " + status
  }

  /** Exactly the statuses without their own text, stalemate and timeout
      among them, get the generic form, and that form shows the status
      itself; the winner appears only for checkmate and resignation. */
  lemma StatusDisplayForms(status: string, winner: Option<string>)
    ensures var d := GameStatusDisplay(status, winner);
      && (StartsWith(d, StopButton + " ") <==> !HasOwnText(status))
      && (!HasOwnText(status) ==> d[|StopButton| + 1..] == status)
    ensures status in {"active", "draw"} ==>
      GameStatusDisplay(status, winner) == GameStatusDisplay(status, None)
    ensures GameStatusDisplay("stalemate", winner) == StopButton + " stalemate"
    ensures GameStatusDisplay("timeout", winner) == StopButton + " timeout"
  {
    var d := GameStatusDisplay(status, winner);
    if HasOwnText(status) {
      assert d[0] != StopButton[0];
    } else {
      assert d[..|StopButton| + 1] == StopButton + " ";
    }
  }

  /** The checkmate and resignation badges name the winner: each shows the
      winner's text, and two badges of the same status agree exactly when
      the winners they show agree. */
  lemma WinnerBadges(status: string, a: Option<string>, b: Option<string>)
    requires status == "checkmate" || status == "resigned"
    ensures Contains(GameStatusDisplay(status, a), ShowWinner(a))
    ensures GameStatusDisplay(status, a) == GameStatusDisplay(status, b) <==> ShowWinner(a) == ShowWinner(b)
    ensures a.Some? && b.Some? ==> (GameStatusDisplay(status, a) == GameStatusDisplay(status, b) <==> a == b)
  {
    var pre := if status == "checkmate" then Chequered + " Checkmate - " else WhiteFlag + " ";
    var post := if status == "checkmate" then " wins" else " wins by resignation";
    var x, y := ShowWinner(a), ShowWinner(b);
    var da, db := GameStatusDisplay(status, a), GameStatusDisplay(status, b);
    assert da == pre + x + post;
    assert db == pre + y + post;
    assert da[|pre|..|pre| + |x|] == x;
    assert OccursAt(da, x, |pre|);
    if da == db {
      assert |x| == |y|;
      assert db[|pre|..|pre| + |y|] == y;
    }
  }

  // ---------------------------------------------------------------------------
  // Recent games

  /** `fetchRecentGames`: the page asks for five games of any type and shows
      the server's listing: the five newest documents, or all of them when
      there are fewer. */
  function FetchRecentGames(store: Store): (shown: seq<GC.Listing>)
    ensures |shown| == if |store| < 5 then |store| else 5
    ensures forall i, j :: 0 <= i < j < |shown| ==> shown[i].createdAt >= shown[j].createdAt
    ensures forall i :: 0 <= i < |shown| ==> exists g :: g in store && shown[i] == GC.ToListing(g)
  {
    var games := GC.RecentGames(store, Some(5), None);
    var shown := GC.GetRecentGames(store, Some(5), None).value;
    assert forall i :: 0 <= i < |shown| ==> games[i] in store && shown[i] == GC.ToListing(games[i]);
    shown
  }

  // ---------------------------------------------------------------------------
  // Room-id field

  /** The room-id field stores what is typed, upper-cased. */
  function RoomIdField(typed: string): (r: string)
    ensures |r| == |typed|
    ensures forall i :: 0 <= i < |r| ==> !IsLowerAscii(r[i])
    ensures forall i :: 0 <= i < |r| && !IsLowerAscii(typed[i]) ==> r[i] == typed[i]
  {
    ToUpperAscii(typed)
  }

  /** Typing the stored value back in changes nothing, and two inputs that
      differ only in the case of letters give the same room id. */
  lemma RoomIdFieldStable(typed: string, other: string)
    ensures RoomIdField(RoomIdField(typed)) == RoomIdField(typed)
    ensures |other| == |typed| && (forall i :: 0 <= i < |typed| ==> UpperChar(other[i]) == UpperChar(typed[i])) ==>
      RoomIdField(other) == RoomIdField(typed)
  {
  }

  /** The room-id field as evidently intended: letter case is ignored, and
      a `room_` prefix typed in any case is stored in the lower case the
      server generates, the rest upper-cased as before. */
  function RoomIdFieldCorrected(typed: string): (r: string)
    ensures |r| == |typed|
    ensures forall i :: 0 <= i < |r| ==> UpperChar(r[i]) == UpperChar(typed[i])
  {
    if |typed| >= 5 && ToUpperAscii(typed[..5]) == "ROOM_" then
      "room_" + ToUpperAscii(typed[5..])
    else
      ToUpperAscii(typed)
  }

  /** Any capitalisation of a generated room id, the id itself included, is
      stored by the corrected field as exactly that id. */
  lemma {:induction false} CorrectedFieldKeepsRoomId(draw: string, typed: string)
    requires ToUpperAscii(typed) == ToUpperAscii(GenerateRoomId(draw))
    ensures RoomIdFieldCorrected(typed) == GenerateRoomId(draw)
  {
    var id := GenerateRoomId(draw);
    assert |typed| == |id| >= 5;
    assert ToUpperAscii(typed[..5]) == "ROOM_" by {
      forall i | 0 <= i < 5 ensures ToUpperAscii(typed[..5])[i] == "ROOM_"[i] {
        assert ToUpperAscii(typed)[i] == ToUpperAscii(id)[i];
      }
    }
    var rest := ToUpperAscii(typed[5..]);
    forall k | 0 <= k < |rest| ensures rest[k] == id[5 + k] {
      assert ToUpperAscii(typed)[5 + k] == ToUpperAscii(id)[5 + k];
    }
    assert rest == id[5..];
    assert id == id[..5] + id[5..];
  }

  // ---------------------------------------------------------------------------
  // Create flows

  const StandardClock: TimeControl := TimeControl(TenMinutes, 0)

  /** The body `startAIGame` posts. */
  function AiGameRequest(playerName: string, aiDifficulty: int): (req: GC.CreateRequest)
    ensures req.gameType == Some("ai") && req.playerBlack.None?
    ensures req.playerWhite == Some(OrElse(Some(playerName), "Anonymous"))
    ensures req.aiDifficulty == Some(aiDifficulty) && req.timeControl == Some(StandardClock)
  {
    GC.CreateRequest(Some("ai"), Some(OrElse(Some(playerName), "Anonymous")), None, Some(aiDifficulty), Some(StandardClock))
  }

  /** The body `createPvPGame` posts. */
  function PvpGameRequest(playerName: string): (req: GC.CreateRequest)
    ensures req.gameType == Some("pvp") && req.playerBlack.None? && req.aiDifficulty.None?
    ensures req.playerWhite == Some(OrElse(Some(playerName), "Anonymous"))
  {
    GC.CreateRequest(Some("pvp"), Some(OrElse(Some(playerName), "Anonymous")), None, None, Some(StandardClock))
  }

  /** What a create flow leaves: the error line and the game it opens. */
  datatype CreateOutcome = CreateOutcome(error: string, started: Option<GC.CreatedGame>)

  /** `startAIGame` (or `createPvPGame` when `pvp`) against the server. */
  function StartGame(store: Store, playerName: string, pvp: bool, aiDifficulty: int,
                     gameId: string, roomDraw: string, now: int): (r: (Store, CreateOutcome))
    ensures var req := if pvp then PvpGameRequest(playerName) else AiGameRequest(playerName, aiDifficulty);
      var (s, reply) := GC.CreateGame(store, req, gameId, roomDraw, now);
      && r.0 == s
      && (reply.Ok? ==> r.1 == CreateOutcome("", Some(reply.value)))
      && (reply.Fail? ==>
            && r.1.started.None?
            && r.1.error == if pvp then "Failed to create PvP game. Please try again."
                            else "Failed to create AI game. Please try again.")
  {
    var req := if pvp then PvpGameRequest(playerName) else AiGameRequest(playerName, aiDifficulty);
    var (s, reply) := GC.CreateGame(store, req, gameId, roomDraw, now);
    match reply
    case Ok(_, game) => (s, CreateOutcome("", Some(game)))
    case Fail(_, _) =>
      (s, CreateOutcome(if pvp then "Failed to create PvP game. Please try again."
                        else "Failed to create AI game. Please try again.", None))
  }

  /** An engine game with a selectable difficulty and a fresh id opens,
      seats the player (or 'Anonymous') as white against the engine, and
      keeps the chosen difficulty. */
  lemma AiGameOpens(store: Store, playerName: string, aiDifficulty: int, gameId: string, roomDraw: string, now: int)
    requires 1 <= aiDifficulty <= 20 && gameId != ""
    requires forall j :: 0 <= j < |store| ==> store[j].gameId != gameId
    ensures var (_, out) := StartGame(store, playerName, false, aiDifficulty, gameId, roomDraw, now);
      && out.error == "" && out.started.Some?
      && out.started.value.playerWhite == (if playerName == "" then "Anonymous" else playerName)
      && out.started.value.playerBlack == "Stockfish AI"
      && out.started.value.aiDifficulty == aiDifficulty
      && out.started.value.roomId.None?
  {
  }

  /** The game screen as written, opened on an engine game whose creator
      typed a name, can never make a move (see `ChessboardAi`). */
  lemma NamedAiGameStuck(store: Store, playerName: string, aiDifficulty: int, gameId: string, roomDraw: string,
                         now: int, piece: string, result: Option<Board.Played>, hasWorker: bool)
    requires playerName != "" && playerName != "Anonymous"
    requires 1 <= aiDifficulty <= 20 && gameId != ""
    requires forall j :: 0 <= j < |store| ==> store[j].gameId != gameId
    requires |piece| > 0
    ensures var (_, out) := StartGame(store, playerName, false, aiDifficulty, gameId, roomDraw, now);
      var b := Board.LoadGameDataAsWritten(Board.InitialBoard, Board.FromCreated(out.started.value));
      && b.playerColor == "black"
      && Board.OnDrop(b, 'w', piece, result) == (false, b)
      && !Board.AiTurnPending(b, hasWorker)
  {
    var (_, out) := StartGame(store, playerName, false, aiDifficulty, gameId, roomDraw, now);
    Board.NamedCreatorStuck(Board.FromCreated(out.started.value), piece, result, hasWorker);
  }

  /** With the corrected colour rule the same creator moves first. */
  lemma NamedAiGamePlays(store: Store, playerName: string, aiDifficulty: int, gameId: string, roomDraw: string,
                         now: int, san: string, after: Board.Position)
    requires 1 <= aiDifficulty <= 20 && gameId != ""
    requires forall j :: 0 <= j < |store| ==> store[j].gameId != gameId
    requires !after.isGameOver
    ensures var (_, out) := StartGame(store, playerName, false, aiDifficulty, gameId, roomDraw, now);
      var b := Board.LoadGameData(Board.InitialBoard, Board.FromCreated(out.started.value));
      Board.OnDrop(b, 'w', "wP", Some(Board.Played(san, after))).0
  {
    var (_, out) := StartGame(store, playerName, false, aiDifficulty, gameId, roomDraw, now);
    Board.CreatorMovesFirst(Board.FromCreated(out.started.value), san, after);
  }

  // ---------------------------------------------------------------------------
  // Join flow

  const EnterRoomId: string := "Please enter a room ID"
  const RoomNotFound: string := "Room not found. Please check the room ID."
  const JoinFailed: string := "Failed to join game. Please try again."

  /** What the join flow leaves: the error line, the game it opens, and how
      many requests it sent. */
  datatype JoinOutcome = JoinOutcome(error: string, started: Option<Game>, requests: nat)

  /** The message for a failed request of the join flow. */
  function JoinError(status: int): (m: string)
    ensures m == RoomNotFound <==> status == 404
    ensures m != RoomNotFound ==> m == JoinFailed
  {
    if status == 404 then RoomNotFound else JoinFailed
  }

  /** `joinPvPGame` against the server: a blank field stops before any
      request; otherwise the room is looked up (by the id as typed, not
      trimmed) and then joined. */
  function JoinPvp(store: Store, roomInput: string, playerName: string): (r: (Store, JoinOutcome))
    ensures IsBlank(roomInput) ==> r == (store, JoinOutcome(EnterRoomId, None, 0))
    ensures !IsBlank(roomInput) ==> r.1.requests >= 1 && r.1.error != EnterRoomId
    ensures r.1.started.Some? <==> r.1.error == ""
    ensures r.1.started.None? ==> r.0 == store
  {
    if Trim(roomInput) == "" then (store, JoinOutcome(EnterRoomId, None, 0))
    else
      match GC.GetGame(store, roomInput, Some("room"))
      case Fail(status, _) => (store, JoinOutcome(JoinError(status), None, 1))
      case Ok(_, _) =>
        match GC.JoinRoom(store, roomInput, Some(OrElse(Some(playerName), "Anonymous")))
        case (s, Ok(_, joined)) => (s, JoinOutcome("", Some(joined.game), 2))
        case (s, Fail(status, _)) => (store, JoinOutcome(JoinError(status), None, 2))
  }

  /** An unknown room reads 'Room not found' after one request, and the
      collection is unchanged. */
  lemma JoinUnknownRoom(store: Store, roomInput: string, playerName: string)
    requires !IsBlank(roomInput)
    requires NoMatch(store, ByRoomId(roomInput))
    ensures JoinPvp(store, roomInput, playerName) == (store, JoinOutcome(RoomNotFound, None, 1))
  {
    TrimEmptyIffBlank(roomInput);
    assert GC.GetGame(store, roomInput, Some("room")) == GC.Fail(404, "Game not found");
  }

  /** A room whose game is over is found but not joined: the page shows the
      generic message, and the collection is unchanged. */
  lemma JoinClosedRoom(store: Store, roomInput: string, playerName: string)
    requires !IsBlank(roomInput)
    requires !NoMatch(store, ByRoomId(roomInput))
    requires store[Find(store, ByRoomId(roomInput)).value].gameStatus != "active"
    ensures JoinPvp(store, roomInput, playerName) == (store, JoinOutcome(JoinFailed, None, 2))
  {
    TrimEmptyIffBlank(roomInput);
    var i := Find(store, ByRoomId(roomInput)).value;
    assert IsFirstMatch(store, ByRoomId(roomInput), i);
    assert GC.GetGame(store, roomInput, Some("room")).Ok?;
    var j := GC.JoinRoom(store, roomInput, Some(OrElse(Some(playerName), "Anonymous")));
    assert j == (store, GC.Fail(400, "Game is not active"));
    assert JoinError(400) == JoinFailed;
  }

  /** An open room with a free black seat is joined: the player's name (or
      'Anonymous') takes that seat in the game the page opens. */
  lemma JoinOpenRoom(store: Store, roomInput: string, playerName: string)
    requires Invariant(store)
    requires !IsBlank(roomInput)
    requires !NoMatch(store, ByRoomId(roomInput))
    requires var i := Find(store, ByRoomId(roomInput)).value;
      store[i].gameStatus == "active" && store[i].playerBlack in {"Anonymous", ""}
    ensures var (_, out) := JoinPvp(store, roomInput, playerName);
      && out.error == "" && out.started.Some?
      && out.started.value.gameId == store[Find(store, ByRoomId(roomInput)).value].gameId
      && out.started.value.playerBlack == OrElse(Some(playerName), "Anonymous")
  {
    TrimEmptyIffBlank(roomInput);
    var name := OrElse(Some(playerName), "Anonymous");
    assert GC.GetGame(store, roomInput, Some("room")).Ok?;
    var j := GC.JoinRoom(store, roomInput, Some(name));
    GC.JoinOpenSeat(store, roomInput, name);
    assert j.1.Ok?;
    assert j.1.value.game.playerBlack == name;
  }

  /** No generated room id is ever what the field holds: the field has no
      lower-case letter, and every generated id starts with one. */
  lemma GeneratedIdsMissField(store: Store, typed: string)
    requires RoomIdsGenerated(store)
    requires !IsBlank(RoomIdField(typed))
    ensures NoMatch(store, ByRoomId(RoomIdField(typed)))
  {
    var id := RoomIdField(typed);
    assert |id| > 0 && !IsLowerAscii(id[0]);
    forall j | 0 <= j < |store| ensures !Matches(store[j], ByRoomId(id)) {
      if store[j].roomId.Some? {
        assert store[j].roomId.value[..5] == "room_";
        assert store[j].roomId.value[0] == 'r';
      }
    }
  }

  /** As written, a room id typed into the page never finds a room: every
      generated id begins with the lower-case `room_`, and the field
      upper-cases whatever is typed, so the lookup answers 404. */
  lemma PageJoinAlwaysMisses(store: Store, typed: string, playerName: string)
    requires RoomIdsGenerated(store)
    requires !IsBlank(RoomIdField(typed))
    ensures JoinPvp(store, RoomIdField(typed), playerName) == (store, JoinOutcome(RoomNotFound, None, 1))
  {
    GeneratedIdsMissField(store, typed);
    JoinUnknownRoom(store, RoomIdField(typed), playerName);
  }

  /** With the corrected field, a second player who types the id of a room
      just created (in any letter case) joins that room as black. */
  lemma JoinCreatedRoom(store: Store, creator: string, gameId: string, roomDraw: string, now: int,
                        typed: string, joiner: string)
    requires Invariant(store)
    requires gameId != "" && forall j :: 0 <= j < |store| ==> store[j].gameId != gameId
    requires NoMatch(store, ByRoomId(GenerateRoomId(roomDraw)))
    requires ToUpperAscii(typed) == ToUpperAscii(GenerateRoomId(roomDraw))
    ensures var s := StartGame(store, creator, true, 0, gameId, roomDraw, now).0;
      var (_, out) := JoinPvp(s, RoomIdFieldCorrected(typed), joiner);
      && out.error == "" && out.started.Some?
      && out.started.value.gameId == gameId
      && out.started.value.playerBlack == OrElse(Some(joiner), "Anonymous")
  {
    var id := GenerateRoomId(roomDraw);
    CorrectedFieldKeepsRoomId(roomDraw, typed);
    var s := StartGame(store, creator, true, 0, gameId, roomDraw, now).0;
    CreatedRoomFirst(store, creator, gameId, roomDraw, now);
    assert id[0] == 'r';
    JoinOpenRoom(s, id, joiner);
  }

  /** Through the corrected field, the id of a room just created, typed in
      any case, looks up exactly that new game. */
  lemma CorrectedFieldFindsCreatedRoom(store: Store, creator: string, gameId: string, roomDraw: string,
                                       now: int, typed: string)
    requires Invariant(store)
    requires gameId != "" && forall j :: 0 <= j < |store| ==> store[j].gameId != gameId
    requires NoMatch(store, ByRoomId(GenerateRoomId(roomDraw)))
    requires ToUpperAscii(typed) == ToUpperAscii(GenerateRoomId(roomDraw))
    ensures var s := StartGame(store, creator, true, 0, gameId, roomDraw, now).0;
      Find(s, ByRoomId(RoomIdFieldCorrected(typed))) == Some(|store|)
  {
    CorrectedFieldKeepsRoomId(roomDraw, typed);
    CreatedRoomFirst(store, creator, gameId, roomDraw, now);
  }

  /** A pvp game created on a collection without its room id is the one
      the room lookup finds: active, with a free black seat. */
  lemma CreatedRoomFirst(store: Store, creator: string, gameId: string, roomDraw: string, now: int)
    requires Invariant(store)
    requires gameId != "" && forall j :: 0 <= j < |store| ==> store[j].gameId != gameId
    requires NoMatch(store, ByRoomId(GenerateRoomId(roomDraw)))
    ensures var s := StartGame(store, creator, true, 0, gameId, roomDraw, now).0;
      && Invariant(s)
      && Find(s, ByRoomId(GenerateRoomId(roomDraw))) == Some(|store|)
      && s[|store|].gameId == gameId && s[|store|].gameStatus == "active"
      && s[|store|].playerBlack == "Anonymous"
  {
    var id := GenerateRoomId(roomDraw);
    var s := StartGame(store, creator, true, 0, gameId, roomDraw, now).0;
    assert |s| == |store| + 1 && s[..|store|] == store;
    assert s[|store|].roomId == Some(id);
    assert IsFirstMatch(s, ByRoomId(id), |store|);
  }
}

=== FILE: js_text.dfy ===
/** The handful of JavaScript string semantics the application leans on:
    truthiness of optional strings and numbers, `startsWith`/`includes`,
    clamping `substring`, `split` on one character and `join`, template
    rendering of integers, `parseInt` of a `-?\d+` capture, the first match of
    the regular expression `<key>(-?\d+)`, `trim`, and `toUpperCase` on ASCII
    letters. */
module JsText {
  import opened Wrappers

  // ---------------------------------------------------------------------------
  // Truthiness

  /** A JavaScript string value is truthy when it is present and non-empty. */
  predicate Truthy(s: Option<string>) {
    s.Some? && s.value != ""
  }

  /** A JavaScript number value is truthy when it is present and non-zero. */
  predicate IntTruthy(n: Option<int>) {
    n.Some? && n.value != 0
  }

  /** `s || fallback` for an optional string. */
  function OrElse(s: Option<string>, fallback: string): (r: string)
    ensures Truthy(s) ==> r == s.value
    ensures !Truthy(s) ==> r == fallback
  {
    if Truthy(s) then s.value else fallback
  }

  // ---------------------------------------------------------------------------
  // Prefixes, substrings, slicing

  predicate StartsWith(s: string, prefix: string) {
    |prefix| <= |s| && s[..|prefix|] == prefix
  }

  /** `s.includes(k)`. */
  predicate Contains(s: string, k: string) {
    exists i :: 0 <= i <= |s| - |k| && OccursAt(s, k, i)
  }

  /** `k` occurs in `s` starting at index `i`. */
  predicate OccursAt(s: string, k: string, i: int) {
    0 <= i && i + |k| <= |s| && s[i..i + |k|] == k
  }

  function Clamp(i: int, n: nat): (r: nat)
    ensures r <= n
  {
    if i < 0 then 0 else if i > n then n else i
  }

  /** `s.substring(start, end)`: both ends clamped into the string, swapped
      when given in the wrong order. */
  function Substring(s: string, start: int, end: int): (r: string)
    ensures 0 <= start <= end <= |s| ==> r == s[start..end]
    ensures |r| <= |s|
  {
    var a := Clamp(start, |s|);
    var b := Clamp(end, |s|);
    if a <= b then s[a..b] else s[b..a]
  }

  // ---------------------------------------------------------------------------
  // split / join on one separator character

  /** `s.split(sep)` for a one-character separator: the maximal pieces
      between separators, empty pieces included. */
  function Split(s: string, sep: char): (parts: seq<string>)
    ensures |parts| >= 1
    ensures forall i :: 0 <= i < |parts| ==> sep !in parts[i]
    decreases |s|
  {
    if |s| == 0 then [""]
    else
      var rest := Split(s[1..], sep);
      if s[0] == sep then [""] + rest
      else [[s[0]] + rest[0]] + rest[1..]
  }

  /** `parts.join(sep)`. */
  function Join(parts: seq<string>, sep: char): string
    decreases |parts|
  {
    if |parts| == 0 then ""
    else if |parts| == 1 then parts[0]
    else parts[0] + [sep] + Join(parts[1..], sep)
  }

  /** Joining the pieces of a split gives back the original string. */
  lemma {:induction false} JoinSplit(s: string, sep: char)
    ensures Join(Split(s, sep), sep) == s
    decreases |s|
  {
    if |s| > 0 {
      var rest := Split(s[1..], sep);
      JoinSplit(s[1..], sep);
      if s[0] == sep {
        assert Split(s, sep) == [""] + rest;
        assert ([""] + rest)[1..] == rest;
        assert s == [sep] + s[1..];
      } else {
        var parts := [[s[0]] + rest[0]] + rest[1..];
        assert Split(s, sep) == parts;
        if |rest| == 1 {
          assert Join(rest, sep) == rest[0];
          assert s == [s[0]] + s[1..];
        } else {
          assert parts[1..] == rest[1..];
          assert Join(rest, sep) == rest[0] + [sep] + Join(rest[1..], sep);
          assert s == [s[0]] + s[1..];
        }
      }
    }
  }

  /** Splitting a string whose first `|p|` characters hold no separator
      glues `p` onto the first piece. */
  lemma {:induction false} SplitCons(p: string, t: string, sep: char)
    requires sep !in p
    ensures Split(p + t, sep) == [p + Split(t, sep)[0]] + Split(t, sep)[1..]
    decreases |p|
  {
    var st := Split(t, sep);
    if |p| == 0 {
      assert p + t == t;
      assert st == [st[0]] + st[1..];
      assert p + st[0] == st[0];
    } else {
      SplitCons(p[1..], t, sep);
      assert p + t == [p[0]] + (p[1..] + t);
      SplitFirst(p[0], p[1..] + t, sep);
      assert [p[0]] + (p[1..] + st[0]) == p + st[0];
    }
  }

  /** A string without the separator splits into itself. */
  lemma SplitNoSep(a: string, sep: char)
    requires sep !in a
    ensures Split(a, sep) == [a]
  {
    SplitCons(a, "", sep);
    assert a + "" == a;
  }

  /** Splitting a string that starts with the character `c`. */
  lemma SplitFirst(c: char, t: string, sep: char)
    ensures Split([c] + t, sep) ==
      if c == sep then [""] + Split(t, sep)
      else [[c] + Split(t, sep)[0]] + Split(t, sep)[1..]
  {
    assert ([c] + t)[0] == c;
    assert ([c] + t)[1..] == t;
  }

  /** A separator-free word followed by the separator is split off whole. */
  lemma SplitWord(a: string, b: string, sep: char)
    requires sep !in a
    ensures Split(a + [sep] + b, sep) == [a] + Split(b, sep)
  {
    assert a + [sep] + b == a + ([sep] + b);
    SplitCons(a, [sep] + b, sep);
    SplitFirst(sep, b, sep);
    assert a + "" == a;
  }

  /** A separator-free word followed by nothing or by the separator is the
      first piece. */
  lemma SplitFirstPiece(w: string, rest: string, sep: char)
    requires sep !in w
    requires rest == "" || rest[0] == sep
    ensures Split(w + rest, sep)[0] == w
  {
    SplitCons(w, rest, sep);
    if rest == "" {
      assert w + "" == w;
    } else {
      assert rest == [sep] + rest[1..];
      SplitFirst(sep, rest[1..], sep);
      assert w + "" == w;
    }
  }

  /** Three separator-free words, each followed by the separator, are split
      off whole. */
  lemma SplitWords3(w1: string, w2: string, w3: string, rest: string, sep: char)
    requires sep !in w1 && sep !in w2 && sep !in w3
    ensures Split(w1 + [sep] + w2 + [sep] + w3 + [sep] + rest, sep) == [w1, w2, w3] + Split(rest, sep)
  {
    var tail := w3 + [sep] + rest;
    var mid := w2 + [sep] + tail;
    assert w1 + [sep] + w2 + [sep] + w3 + [sep] + rest == w1 + [sep] + mid;
    SplitWord(w3, rest, sep);
    SplitWord(w2, tail, sep);
    SplitWord(w1, mid, sep);
  }

  /** Splitting a join of separator-free pieces gives back the pieces. */
  lemma {:induction false} SplitJoin(parts: seq<string>, sep: char)
    requires |parts| >= 1
    requires forall i :: 0 <= i < |parts| ==> sep !in parts[i]
    ensures Split(Join(parts, sep), sep) == parts
    decreases |parts|
  {
    if |parts| == 1 {
      SplitCons(parts[0], "", sep);
      assert parts[0] + "" == parts[0];
      assert Split("", sep) == [""];
    } else {
      var tail := Join(parts[1..], sep);
      SplitJoin(parts[1..], sep);
      SplitCons(parts[0], [sep] + tail, sep);
      assert parts[0] + [sep] + tail == parts[0] + ([sep] + tail);
      var r := Split([sep] + tail, sep);
      assert ([sep] + tail)[0] == sep;
      assert ([sep] + tail)[1..] == tail;
      assert r == [""] + parts[1..];
      assert parts[0] + "" == parts[0];
      assert parts == [parts[0]] + parts[1..];
    }
  }

  // ---------------------------------------------------------------------------
  // Decimal integers: template rendering and parseInt

  predicate IsDigit(c: char) {
    '0' <= c <= '9'
  }

  predicate AllDigits(s: string) {
    forall i :: 0 <= i < |s| ==> IsDigit(s[i])
  }

  function DigitChar(d: nat): (c: char)
    requires d < 10
    ensures IsDigit(c)
  {
    (48 + d) as char
  }

  function DigitValue(c: char): (d: nat)
    requires IsDigit(c)
    ensures d < 10
  {
    c as int - 48
  }

  /** Decimal rendering of a natural number, without leading zeros. */
  function NatToString(n: nat): (s: string)
    ensures |s| >= 1 && AllDigits(s)
    ensures |s| > 1 ==> s[0] != '0'
    decreases n
  {
    if n < 10 then [DigitChar(n)] else NatToString(n / 10) + [DigitChar(n % 10)]
  }

  /** The value of a string of decimal digits. */
  function DigitsValue(s: string): nat
    requires AllDigits(s)
    decreases |s|
  {
    if |s| == 0 then 0 else DigitsValue(s[..|s| - 1]) * 10 + DigitValue(s[|s| - 1])
  }

  lemma {:induction false} NatRoundTrip(n: nat)
    ensures DigitsValue(NatToString(n)) == n
    decreases n
  {
    if n >= 10 {
      NatRoundTrip(n / 10);
      var s := NatToString(n);
      assert s[..|s| - 1] == NatToString(n / 10);
    }
  }

  /** `${n}` for an integer `n`. */
  function IntToString(n: int): (s: string)
    ensures |s| >= 1
    ensures n < 0 <==> s[0] == '-'
    ensures forall i :: 0 <= i < |s| ==> s[i] == '-' || IsDigit(s[i])
  {
    if n < 0 then "-" + NatToString(-n) else NatToString(n)
  }

  /** `parseInt` of a string that has the exact shape `-?\d+`; `None` for
      any other shape. */
  function ParseInt(s: string): Option<int> {
    if |s| > 0 && s[0] == '-' then
      if |s| > 1 && AllDigits(s[1..]) then Some(0 - DigitsValue(s[1..]) as int) else None
    else if |s| > 0 && AllDigits(s) then Some(DigitsValue(s))
    else None
  }

  /** Rendering an integer and parsing it back is the identity. */
  lemma IntRoundTrip(n: int)
    ensures ParseInt(IntToString(n)) == Some(n)
  {
    var s := IntToString(n);
    if n < 0 {
      assert s[1..] == NatToString(-n);
      NatRoundTrip(-n);
    } else {
      NatRoundTrip(n);
    }
  }

  // ---------------------------------------------------------------------------
  // The regular expression `<key>(-?\d+)`

  /** Length of the run of decimal digits at the start of `s`. */
  function DigitRun(s: string): (n: nat)
    ensures n <= |s| && AllDigits(s[..n])
    ensures n < |s| ==> !IsDigit(s[n])
    decreases |s|
  {
    if |s| == 0 || !IsDigit(s[0]) then 0 else 1 + DigitRun(s[1..])
  }

  /** The greedy match of `-?\d+` anchored at the start of `s`. */
  function SignedNumberAt(s: string): (m: Option<string>)
    ensures m.Some? ==> StartsWith(s, m.value) && ParseInt(m.value).Some?
  {
    if |s| > 0 && s[0] == '-' && DigitRun(s[1..]) > 0 then
      var k := DigitRun(s[1..]);
      assert s[..1 + k][1..] == s[1..][..k];
      Some(s[..1 + k])
    else if DigitRun(s) > 0 then
      Some(s[..DigitRun(s)])
    else None
  }

  /** The capture group of the leftmost match of `<key>(-?\d+)` in `s`. */
  function FirstMatch(s: string, key: string): (m: Option<string>)
    ensures m.Some? ==> ParseInt(m.value).Some?
    decreases |s|
  {
    if StartsWith(s, key) && SignedNumberAt(s[|key|..]).Some? then SignedNumberAt(s[|key|..])
    else if |s| == 0 then None
    else FirstMatch(s[1..], key)
  }

  /** `parseInt` of the capture of `<key>(-?\d+)`, if the pattern matches. */
  function MatchNumber(s: string, key: string): Option<int> {
    var m := FirstMatch(s, key);
    if m.Some? then ParseInt(m.value) else None
  }

  lemma {:induction false} DigitRunOfDigits(d: string, t: string)
    requires AllDigits(d)
    requires t == "" || !IsDigit(t[0])
    ensures DigitRun(d + t) == |d|
    decreases |d|
  {
    if |d| > 0 {
      assert (d + t)[1..] == d[1..] + t;
      DigitRunOfDigits(d[1..], t);
    } else {
      assert d + t == t;
    }
  }

  lemma SignedNumberOfRendering(n: int, t: string)
    requires t == "" || !IsDigit(t[0])
    ensures SignedNumberAt(IntToString(n) + t) == Some(IntToString(n))
  {
    var s := IntToString(n);
    if n < 0 {
      var d := NatToString(-n);
      assert s == "-" + d;
      assert (s + t)[1..] == d + t;
      DigitRunOfDigits(d, t);
      assert (s + t)[..1 + |d|] == s;
    } else {
      DigitRunOfDigits(s, t);
      assert (s + t)[..|s|] == s;
    }
  }

  /** A prefix without the key's first character holds no occurrence of
      the key. */
  lemma FirstCharAbsent(p: string, key: string)
    requires |key| > 0 && key[0] !in p
    ensures forall i :: 0 <= i < |p| ==> !OccursAt(p + key, key, i)
  {
  }

  /** A number rendered right after `key`, with no earlier occurrence of
      `key`, is exactly what the pattern captures and parses. */
  lemma {:induction false} MatchNumberOfRendering(p: string, key: string, n: int, t: string)
    requires |key| > 0
    requires forall i :: 0 <= i < |p| ==> !OccursAt(p + key, key, i)
    requires t == "" || !IsDigit(t[0])
    ensures MatchNumber(p + key + IntToString(n) + t, key) == Some(n)
    decreases |p|
  {
    var s := p + key + IntToString(n) + t;
    if |p| == 0 {
      assert s == key + (IntToString(n) + t);
      assert s[..|key|] == key;
      assert s[|key|..] == IntToString(n) + t;
      SignedNumberOfRendering(n, t);
      IntRoundTrip(n);
    } else {
      assert !StartsWith(s, key) by {
        assert !OccursAt(p + key, key, 0);
        assert s[..|key|] == (p + key)[..|key|];
      }
      assert s[1..] == p[1..] + key + IntToString(n) + t;
      forall i | 0 <= i < |p[1..]|
        ensures !OccursAt(p[1..] + key, key, i)
      {
        assert !OccursAt(p + key, key, i + 1);
        assert (p[1..] + key)[i..i + |key|] == (p + key)[i + 1..i + 1 + |key|];
      }
      MatchNumberOfRendering(p[1..], key, n, t);
    }
  }

  // ---------------------------------------------------------------------------
  // trim

  /** The characters `String.prototype.trim` removes: ECMAScript WhiteSpace
      and LineTerminator code points. */
  predicate IsJsWhitespace(c: char) {
    var u := c as int;
    u == 0x09 || u == 0x0A || u == 0x0B || u == 0x0C || u == 0x0D || u == 0x20
    || u == 0xA0 || u == 0x1680 || (0x2000 <= u <= 0x200A) || u == 0x2028
    || u == 0x2029 || u == 0x202F || u == 0x205F || u == 0x3000 || u == 0xFEFF
  }

  predicate IsBlank(s: string) {
    forall i :: 0 <= i < |s| ==> IsJsWhitespace(s[i])
  }

  lemma BlankCons(c: char, t: string)
    requires IsJsWhitespace(c) && IsBlank(t)
    ensures IsBlank([c] + t)
  {
  }

  function TrimStart(s: string): (r: string)
    ensures |r| <= |s| && r == s[|s| - |r|..]
    ensures IsBlank(s[..|s| - |r|])
    ensures r == "" || !IsJsWhitespace(r[0])
    decreases |s|
  {
    if |s| > 0 && IsJsWhitespace(s[0]) then
      var r := TrimStart(s[1..]);
      var k := |s| - |r|;
      assert s[..k] == [s[0]] + s[1..][..k - 1];
      BlankCons(s[0], s[1..][..k - 1]);
      r
    else s
  }

  function TrimEnd(s: string): (r: string)
    ensures |r| <= |s| && r == s[..|r|]
    ensures IsBlank(s[|r|..])
    ensures r == "" || !IsJsWhitespace(r[|r| - 1])
    decreases |s|
  {
    if |s| > 0 && IsJsWhitespace(s[|s| - 1]) then
      var r := TrimEnd(s[..|s| - 1]);
      assert s[|r|..] == s[..|s| - 1][|r|..] + [s[|s| - 1]];
      r
    else s
  }

  /** `s.trim()`. */
  function Trim(s: string): string {
    TrimEnd(TrimStart(s))
  }

  lemma {:induction false} TrimStartOfBlank(s: string)
    requires IsBlank(s)
    ensures TrimStart(s) == ""
    decreases |s|
  {
    if |s| > 0 {
      TrimStartOfBlank(s[1..]);
    }
  }

  /** `s.trim()` is empty exactly when every character of `s` is whitespace. */
  lemma TrimEmptyIffBlank(s: string)
    ensures Trim(s) == "" <==> IsBlank(s)
  {
    if IsBlank(s) {
      TrimStartOfBlank(s);
    }
    if Trim(s) == "" {
      var a := TrimStart(s);
      assert a[0..] == a;
      assert s[..|s| - |a|] == s;
    }
  }

  // ---------------------------------------------------------------------------
  // toUpperCase / toLowerCase (ASCII letters)

  predicate IsLowerAscii(c: char) {
    'a' <= c <= 'z'
  }

  predicate IsUpperAscii(c: char) {
    'A' <= c <= 'Z'
  }

  function UpperChar(c: char): (u: char)
    ensures !IsLowerAscii(u)
    ensures IsLowerAscii(c) ==> IsUpperAscii(u) && u as int == c as int - 32
    ensures !IsLowerAscii(c) ==> u == c
  {
    if IsLowerAscii(c) then (c as int - 32) as char else c
  }

  function LowerChar(c: char): (l: char)
    ensures !IsUpperAscii(l)
    ensures IsUpperAscii(c) ==> IsLowerAscii(l) && l as int == c as int + 32
    ensures !IsUpperAscii(c) ==> l == c
  {
    if IsUpperAscii(c) then (c as int + 32) as char else c
  }

  /** `s.toUpperCase()` restricted to the ASCII letters `a`..`z`. */
  function ToUpperAscii(s: string): (r: string)
    ensures |r| == |s|
    ensures forall i :: 0 <= i < |s| ==> r[i] == UpperChar(s[i])
  {
    seq(|s|, i requires 0 <= i < |s| => UpperChar(s[i]))
  }
}

=== FILE: socket_server.dfy ===
/** The Socket.IO handlers of backend/socket/socket.js as one dispatch over a
    closed set of events. A server state is the game collection, the room
    membership map the adapter keeps, and the two properties (`roomId`,
    `playerName`) the handlers attach to each connected socket. Every step is
    atomic and returns the new state plus the emitted events, each tagged with
    its audience: the sender only (`socket.emit`), the other members of a
    room (`socket.to(room).emit`), or every member of a room
    (`io.to(room).emit`). */
module SocketServer {
  import opened Wrappers
  import opened JsText
  import opened GameModel
  import opened GameStore

  type SocketId = string

  /** What the handlers store on a socket object. */
  datatype Conn = Conn(roomId: Option<string>, playerName: Option<string>)

  /** Room name to the sockets currently in it. */
  type Rooms = map<string, set<SocketId>>

  datatype Server = Server(store: Store, rooms: Rooms, conns: map<SocketId, Conn>)

  datatype Audience = ToSender | ToOthers(room: string) | ToRoom(room: string)

  /** A payload key that may be left out altogether. */
  datatype Field<T> = Omitted | Present(value: T)

  /** The `game-state` payload. */
  datatype Snapshot = Snapshot(
    currentFen: string,
    moves: seq<MoveEntry>,
    gameStatus: string,
    playerWhite: string,
    playerBlack: string,
    playerTimes: PlayerTimes,
    winner: Field<Option<string>>)

  /** The `move` object a client sends with `make-move`. */
  datatype MovePayload = MovePayload(from: string, to: string, promotion: Option<string>)

  datatype Event =
    | Error(message: string)
    | PlayerJoined(playerName: Option<string>, playersInRoom: nat)
    | GameState(snapshot: Snapshot)
    | MoveMade(move: Option<MovePayload>, currentFen: string, pgn: string, playerTimes: PlayerTimes,
               reportedStatus: Option<string>, reportedWinner: Option<string>, madeBy: Option<string>)
    | GameResigned(resigningPlayer: Option<string>, winner: string, gameStatus: string)
    | DrawOffered(offeredBy: Option<string>)
    | DrawAccepted(gameStatus: string, winner: string)
    | DrawDeclined(declinedBy: Option<string>)
    | ChatMessage(text: Option<string>, sender: Option<string>, timestamp: string)
    | PlayerLeft(leaver: string)
    | PlayerReconnected(playerName: Option<string>)

  datatype Emission = Emission(to: Audience, event: Event)

  /** The inbound events, with the payload fields each handler reads.
      `accepted` of 'draw-response' is the truthiness of the payload's
      field, the only way the handler uses it. */
  datatype Command =
    | Connect
    | JoinRoom(roomId: string, playerName: Option<string>)
    | MakeMove(roomId: string, move: Option<MovePayload>, currentFen: string, pgn: string,
               playerTimes: PlayerTimes, gameStatus: Option<string>, winner: Option<string>)
    | Resign(roomId: string, resigningPlayer: Option<string>)
    | OfferDraw(roomId: string, offeredBy: Option<string>)
    | DrawResponse(roomId: string, accepted: bool, respondedBy: Option<string>)
    | Chat(roomId: string, message: Option<string>, sender: Option<string>, timestamp: string)
    | Disconnect
    | ReconnectRoom(roomId: string, playerName: Option<string>)

  // ---------------------------------------------------------------------------
  // Rooms and audiences

  function Members(rooms: Rooms, room: string): set<SocketId> {
    if room in rooms then rooms[room] else {}
  }

  /** `getPlayersInRoom`: the room's size, 0 for a room that does not exist. */
  function PlayersInRoom(rooms: Rooms, room: string): (n: nat)
    ensures n == |Members(rooms, room)|
    ensures room !in rooms ==> n == 0
  {
    if room in rooms then |rooms[room]| else 0
  }

  /** The sockets an emission reaches, given the membership at emission time. */
  function Recipients(rooms: Rooms, sender: SocketId, a: Audience): set<SocketId> {
    match a
    case ToSender => {sender}
    case ToOthers(r) => Members(rooms, r) - {sender}
    case ToRoom(r) => Members(rooms, r)
  }

  function ConnOf(s: Server, sid: SocketId): Conn {
    if sid in s.conns then s.conns[sid] else Conn(None, None)
  }

  /** `socket.join(roomId)` followed by setting `socket.roomId` and
      `socket.playerName`. Earlier memberships are kept. */
  function Enter(s: Server, sid: SocketId, roomId: string, playerName: Option<string>): (r: Server)
    ensures r.store == s.store
    ensures Members(r.rooms, roomId) == Members(s.rooms, roomId) + {sid}
    ensures forall room :: room != roomId ==> Members(r.rooms, room) == Members(s.rooms, room)
    ensures r.conns == s.conns[sid := Conn(Some(roomId), playerName)]
  {
    s.(rooms := s.rooms[roomId := Members(s.rooms, roomId) + {sid}],
       conns := s.conns[sid := Conn(Some(roomId), playerName)])
  }

  /** What the adapter does when a socket disconnects: it leaves every room. */
  function LeaveAll(rooms: Rooms, sid: SocketId): (r: Rooms)
    ensures forall room :: Members(r, room) == Members(rooms, room) - {sid}
  {
    map room | room in rooms :: rooms[room] - {sid}
  }

  /** The `game-state` payload of a document. */
  function SnapshotOf(g: Game, winner: Field<Option<string>>): Snapshot {
    Snapshot(g.currentFen, g.moves, g.gameStatus, g.playerWhite, g.playerBlack, g.playerTimes, winner)
  }

  /** What a socket handler may do to the collection: edit documents in
      place through `save`, never add, remove or re-key one, and never break
      the collection's invariant or the shape of its room ids. */
  predicate StoreStep(a: Store, b: Store) {
    && |b| == |a|
    && (forall j :: 0 <= j < |a| ==> b[j].gameId == a[j].gameId)
    && (Invariant(a) ==> Invariant(b))
    && (RoomIdsGenerated(a) ==> RoomIdsGenerated(b))
  }

  // ---------------------------------------------------------------------------
  // Handlers

  /** 'join-room'. */
  function OnJoinRoom(s: Server, sid: SocketId, roomId: string, playerName: Option<string>)
    : (r: (Server, seq<Emission>))
    ensures NoMatch(s.store, ByRoomId(roomId)) ==> r == (s, [Emission(ToSender, Error("Room not found"))])
    ensures !NoMatch(s.store, ByRoomId(roomId)) ==>
      && r.0 == Enter(s, sid, roomId, playerName)
      && exists i :: IsFirstMatch(s.store, ByRoomId(roomId), i) && r.1 ==
           [Emission(ToOthers(roomId), PlayerJoined(playerName, |Members(r.0.rooms, roomId)|)),
            Emission(ToSender, GameState(SnapshotOf(s.store[i], Omitted)))]
  {
    match Find(s.store, ByRoomId(roomId))
    case None => (s, [Emission(ToSender, Error("Room not found"))])
    case Some(i) =>
      var s' := Enter(s, sid, roomId, playerName);
      (s', [Emission(ToOthers(roomId), PlayerJoined(playerName, PlayersInRoom(s'.rooms, roomId))),
            Emission(ToSender, GameState(SnapshotOf(s.store[i], Omitted)))])
  }

  /** 'make-move': the position, PGN and clocks are always overwritten, the
      status and winner only by truthy values; then `move-made` goes to the
      whole room. When the event carries no `move` object, the log line
      after the broadcast throws and the sender also receives an error. */
  function OnMakeMove(s: Server, sid: SocketId, roomId: string, move: Option<MovePayload>,
                      currentFen: string, pgn: string, playerTimes: PlayerTimes,
                      gameStatus: Option<string>, winner: Option<string>)
    : (r: (Server, seq<Emission>))
    ensures r.0.rooms == s.rooms && r.0.conns == s.conns
    ensures StoreStep(s.store, r.0.store)
    ensures NoMatch(s.store, ByRoomId(roomId)) ==> r == (s, [Emission(ToSender, Error("Game not found"))])
    ensures !NoMatch(s.store, ByRoomId(roomId)) ==>
      exists i :: IsFirstMatch(s.store, ByRoomId(roomId), i) &&
        var g := s.store[i];
        var g' := g.(currentFen := currentFen, pgn := pgn, playerTimes := playerTimes,
                     gameStatus := if Truthy(gameStatus) then gameStatus.value else g.gameStatus,
                     winner := if Truthy(winner) then winner else g.winner);
        var made := Emission(ToRoom(roomId), MoveMade(move, currentFen, pgn, playerTimes, gameStatus, winner,
                                                     ConnOf(s, sid).playerName));
        if Save(s.store, i, g').Some? then
          && r.0.store == s.store[i := g']
          && r.1 == (if move.Some? then [made] else [made, Emission(ToSender, Error("Failed to process move"))])
        else r == (s, [Emission(ToSender, Error("Failed to process move"))])
  {
    match Find(s.store, ByRoomId(roomId))
    case None => (s, [Emission(ToSender, Error("Game not found"))])
    case Some(i) =>
      var g := s.store[i];
      var g' := g.(currentFen := currentFen, pgn := pgn, playerTimes := playerTimes,
                   gameStatus := if Truthy(gameStatus) then gameStatus.value else g.gameStatus,
                   winner := if Truthy(winner) then winner else g.winner);
      match Save(s.store, i, g')
      case None => (s, [Emission(ToSender, Error("Failed to process move"))])
      case Some(st) =>
        var made := Emission(ToRoom(roomId), MoveMade(move, currentFen, pgn, playerTimes, gameStatus, winner,
                                                     ConnOf(s, sid).playerName));
        (s.(store := st), if move.Some? then [made] else [made, Emission(ToSender, Error("Failed to process move"))])
  }

  /** The winner the 'resign' handler declares. */
  function ResignWinner(resigningPlayer: Option<string>): (w: string)
    ensures w == "black" <==> resigningPlayer == Some("white")
    ensures w in {"black", "white"}
  {
    if resigningPlayer == Some("white") then "black" else "white"
  }

  /** 'resign': status 'resigned' and the opponent as winner, whatever the
      game's status was before. */
  function OnResign(s: Server, sid: SocketId, roomId: string, resigningPlayer: Option<string>)
    : (r: (Server, seq<Emission>))
    ensures r.0.rooms == s.rooms && r.0.conns == s.conns
    ensures StoreStep(s.store, r.0.store)
    ensures NoMatch(s.store, ByRoomId(roomId)) ==> r == (s, [Emission(ToSender, Error("Game not found"))])
    ensures Invariant(s.store) && !NoMatch(s.store, ByRoomId(roomId)) ==>
      exists i :: IsFirstMatch(s.store, ByRoomId(roomId), i)
        && r.0.store == s.store[i := s.store[i].(gameStatus := "resigned", winner := Some(ResignWinner(resigningPlayer)))]
        && r.1 == [Emission(ToRoom(roomId), GameResigned(resigningPlayer, ResignWinner(resigningPlayer), "resigned"))]
  {
    match Find(s.store, ByRoomId(roomId))
    case None => (s, [Emission(ToSender, Error("Game not found"))])
    case Some(i) =>
      var w := ResignWinner(resigningPlayer);
      match Save(s.store, i, s.store[i].(gameStatus := "resigned", winner := Some(w)))
      case None => (s, [Emission(ToSender, Error("Failed to process resignation"))])
      case Some(st) => (s.(store := st), [Emission(ToRoom(roomId), GameResigned(resigningPlayer, w, "resigned"))])
  }

  /** 'offer-draw': nothing is read or written; the other members are told. */
  function OnOfferDraw(s: Server, sid: SocketId, roomId: string, offeredBy: Option<string>)
    : (r: (Server, seq<Emission>))
    ensures r.0 == s
    ensures |r.1| == 1 && r.1[0].to == ToOthers(roomId) && r.1[0].event == DrawOffered(offeredBy)
  {
    (s, [Emission(ToOthers(roomId), DrawOffered(offeredBy))])
  }

  /** 'draw-response': an acceptance marks the game drawn when it exists and
      tells the whole room either way; a refusal tells the others only. */
  function OnDrawResponse(s: Server, sid: SocketId, roomId: string, accepted: bool, respondedBy: Option<string>)
    : (r: (Server, seq<Emission>))
    ensures r.0.rooms == s.rooms && r.0.conns == s.conns
    ensures StoreStep(s.store, r.0.store)
    ensures !accepted ==> r == (s, [Emission(ToOthers(roomId), DrawDeclined(respondedBy))])
    ensures accepted && NoMatch(s.store, ByRoomId(roomId)) ==>
      r == (s, [Emission(ToRoom(roomId), DrawAccepted("draw", "draw"))])
    ensures accepted && Invariant(s.store) && !NoMatch(s.store, ByRoomId(roomId)) ==>
      exists i :: IsFirstMatch(s.store, ByRoomId(roomId), i)
        && r.0.store == s.store[i := s.store[i].(gameStatus := "draw", winner := Some("draw"))]
        && r.1 == [Emission(ToRoom(roomId), DrawAccepted("draw", "draw"))]
  {
    if accepted then
      match Find(s.store, ByRoomId(roomId))
      case None => (s, [Emission(ToRoom(roomId), DrawAccepted("draw", "draw"))])
      case Some(i) =>
        match Save(s.store, i, s.store[i].(gameStatus := "draw", winner := Some("draw")))
        case None => (s, [Emission(ToSender, Error("Failed to process draw response"))])
        case Some(st) => (s.(store := st), [Emission(ToRoom(roomId), DrawAccepted("draw", "draw"))])
    else
      (s, [Emission(ToOthers(roomId), DrawDeclined(respondedBy))])
  }

  /** 'chat-message': relayed to the whole room with the given timestamp. */
  function OnChat(s: Server, roomId: string, message: Option<string>, sender: Option<string>, timestamp: string)
    : (r: (Server, seq<Emission>))
    ensures r.0 == s
    ensures r.1 == [Emission(ToRoom(roomId), ChatMessage(message, sender, timestamp))]
  {
    (s, [Emission(ToRoom(roomId), ChatMessage(message, sender, timestamp))])
  }

  /** 'disconnect': the socket has left every room; the game is untouched;
      the others in its room hear `player-left` only when it carries both a
      room and a player name. */
  function OnDisconnect(s: Server, sid: SocketId): (r: (Server, seq<Emission>))
    ensures r.0.store == s.store
    ensures sid !in r.0.conns && r.0.conns == s.conns - {sid}
    ensures forall room :: sid !in Members(r.0.rooms, room)
    ensures forall room :: Members(r.0.rooms, room) == Members(s.rooms, room) - {sid}
    ensures |r.1| == 1 <==> Truthy(ConnOf(s, sid).roomId) && Truthy(ConnOf(s, sid).playerName)
    ensures |r.1| != 1 ==> r.1 == []
    ensures |r.1| == 1 ==>
      r.1[0] == Emission(ToOthers(ConnOf(s, sid).roomId.value), PlayerLeft(ConnOf(s, sid).playerName.value))
  {
    var c := ConnOf(s, sid);
    var s' := s.(rooms := LeaveAll(s.rooms, sid), conns := s.conns - {sid});
    if Truthy(c.roomId) && Truthy(c.playerName) then
      (s', [Emission(ToOthers(c.roomId.value), PlayerLeft(c.playerName.value))])
    else (s', [])
  }

  /** 'reconnect-room': like 'join-room', but the snapshot comes first and
      includes `winner`, and the others hear `player-reconnected`. */
  function OnReconnectRoom(s: Server, sid: SocketId, roomId: string, playerName: Option<string>)
    : (r: (Server, seq<Emission>))
    ensures NoMatch(s.store, ByRoomId(roomId)) ==> r == (s, [Emission(ToSender, Error("Room not found"))])
    ensures !NoMatch(s.store, ByRoomId(roomId)) ==>
      && r.0 == Enter(s, sid, roomId, playerName)
      && exists i :: IsFirstMatch(s.store, ByRoomId(roomId), i) && r.1 ==
           [Emission(ToSender, GameState(SnapshotOf(s.store[i], Present(s.store[i].winner)))),
            Emission(ToOthers(roomId), PlayerReconnected(playerName))]
  {
    match Find(s.store, ByRoomId(roomId))
    case None => (s, [Emission(ToSender, Error("Room not found"))])
    case Some(i) =>
      var g := s.store[i];
      (Enter(s, sid, roomId, playerName),
       [Emission(ToSender, GameState(SnapshotOf(g, Present(g.winner)))),
        Emission(ToOthers(roomId), PlayerReconnected(playerName))])
  }

  // ---------------------------------------------------------------------------
  // Dispatch and invariants

  /** Every socket in a room is a connected socket. */
  predicate MembersConnected(s: Server) {
    forall room, x :: room in s.rooms && x in s.rooms[room] ==> x in s.conns
  }

  predicate ServerInvariant(s: Server) {
    Invariant(s.store) && MembersConnected(s)
  }

  /** The handler for one event of socket `sid`; 'connection' gives a fresh
      socket no properties. */
  function Step(s: Server, sid: SocketId, cmd: Command): (r: (Server, seq<Emission>))
    ensures StoreStep(s.store, r.0.store)
    ensures forall x :: x in s.conns && x != sid ==> x in r.0.conns && r.0.conns[x] == s.conns[x]
  {
    match cmd
    case Connect => (s.(conns := s.conns[sid := Conn(None, None)]), [])
    case JoinRoom(roomId, playerName) => OnJoinRoom(s, sid, roomId, playerName)
    case MakeMove(roomId, move, fen, pgn, times, status, winner) =>
      OnMakeMove(s, sid, roomId, move, fen, pgn, times, status, winner)
    case Resign(roomId, who) => OnResign(s, sid, roomId, who)
    case OfferDraw(roomId, who) => OnOfferDraw(s, sid, roomId, who)
    case DrawResponse(roomId, accepted, who) => OnDrawResponse(s, sid, roomId, accepted, who)
    case Chat(roomId, message, sender, timestamp) => OnChat(s, roomId, message, sender, timestamp)
    case Disconnect => OnDisconnect(s, sid)
    case ReconnectRoom(roomId, playerName) => OnReconnectRoom(s, sid, roomId, playerName)
  }

  /** Every step keeps the collection valid and every room member
      connected. */
  lemma {:induction false} StepPreservesInvariant(s: Server, sid: SocketId, cmd: Command)
    requires ServerInvariant(s)
    ensures ServerInvariant(Step(s, sid, cmd).0)
  {
    var r := Step(s, sid, cmd).0;
    match cmd
    case Disconnect =>
      forall room, x | room in r.rooms && x in r.rooms[room] ensures x in r.conns {
        assert x in Members(r.rooms, room);
      }
    case JoinRoom(roomId, playerName) =>
      if !NoMatch(s.store, ByRoomId(roomId)) {
        EnterKeepsConnected(s, sid, roomId, playerName);
      }
    case ReconnectRoom(roomId, playerName) =>
      if !NoMatch(s.store, ByRoomId(roomId)) {
        EnterKeepsConnected(s, sid, roomId, playerName);
      }
    case Connect =>
      assert r.rooms == s.rooms;
    case MakeMove(_, _, _, _, _, _, _) =>
    case Resign(_, _) =>
    case OfferDraw(_, _) =>
    case DrawResponse(_, _, _) =>
    case Chat(_, _, _, _) =>
  }

  /** Joining a room keeps every member connected. */
  lemma EnterKeepsConnected(s: Server, sid: SocketId, roomId: string, playerName: Option<string>)
    requires MembersConnected(s)
    ensures MembersConnected(Enter(s, sid, roomId, playerName))
  {
    var r := Enter(s, sid, roomId, playerName);
    forall room, x | room in r.rooms && x in r.rooms[room] ensures x in r.conns {
      assert x in Members(r.rooms, room);
      if x != sid {
        assert x in Members(s.rooms, room);
      }
    }
  }

  /** A run of events from possibly different sockets, applied one at a
      time; the emissions of each step are collected in order. */
  function Run(s: Server, events: seq<(SocketId, Command)>): (r: (Server, seq<Emission>))
    ensures |r.0.store| == |s.store|
    ensures forall j :: 0 <= j < |s.store| ==> r.0.store[j].gameId == s.store[j].gameId
    ensures RoomIdsGenerated(s.store) ==> RoomIdsGenerated(r.0.store)
    decreases |events|
  {
    if |events| == 0 then (s, [])
    else
      var (s1, out1) := Step(s, events[0].0, events[0].1);
      var (s2, out2) := Run(s1, events[1..]);
      (s2, out1 + out2)
  }

  /** The invariant holds after any run of events. */
  lemma {:induction false} RunPreservesInvariant(s: Server, events: seq<(SocketId, Command)>)
    requires ServerInvariant(s)
    ensures ServerInvariant(Run(s, events).0)
    decreases |events|
  {
    if |events| > 0 {
      StepPreservesInvariant(s, events[0].0, events[0].1);
      RunPreservesInvariant(Step(s, events[0].0, events[0].1).0, events[1..]);
    }
  }

  // ---------------------------------------------------------------------------
  // Audience properties

  /** A successful join: the joiner receives the snapshot and nobody else
      does; `player-joined` reaches every other member but not the joiner,
      and its count is the room's size including the joiner. */
  lemma JoinAudiences(s: Server, sid: SocketId, roomId: string, playerName: Option<string>)
    requires !NoMatch(s.store, ByRoomId(roomId))
    ensures var (s', out) := OnJoinRoom(s, sid, roomId, playerName);
      && sid in Members(s'.rooms, roomId)
      && Recipients(s'.rooms, sid, out[1].to) == {sid}
      && out[1].event.GameState? && out[1].event.snapshot.winner == Omitted
      && Recipients(s'.rooms, sid, out[0].to) == Members(s.rooms, roomId) - {sid}
      && out[0].event.PlayerJoined?
      && out[0].event.playersInRoom == |Recipients(s'.rooms, sid, out[0].to)| + 1
  {
    var (s', out) := OnJoinRoom(s, sid, roomId, playerName);
    var m := Members(s'.rooms, roomId);
    assert m == (m - {sid}) + {sid};
    assert |m| == |m - {sid}| + 1;
  }

  /** A reconnect snapshot carries the stored winner, the join snapshot
      never does. */
  lemma SnapshotWinner(s: Server, sid: SocketId, roomId: string, playerName: Option<string>)
    requires !NoMatch(s.store, ByRoomId(roomId))
    ensures var i := Find(s.store, ByRoomId(roomId)).value;
      && OnReconnectRoom(s, sid, roomId, playerName).1[0].event.snapshot.winner == Present(s.store[i].winner)
      && OnJoinRoom(s, sid, roomId, playerName).1[1].event.snapshot.winner == Omitted
  {
  }

  /** Offers and refusals never reach their sender; a room-wide broadcast
      (a move, a resignation, an accepted draw) reaches the sender exactly
      when it is a member of the room. */
  lemma BroadcastReach(rooms: Rooms, sid: SocketId, roomId: string)
    ensures sid !in Recipients(rooms, sid, ToOthers(roomId))
    ensures sid in Recipients(rooms, sid, ToRoom(roomId)) <==> sid in Members(rooms, roomId)
    ensures Recipients(rooms, sid, ToOthers(roomId)) + (Members(rooms, roomId) * {sid}) ==
            Recipients(rooms, sid, ToRoom(roomId))
  {
  }

  /** 'make-move' on a valid game with an acceptable status and winner is
      saved, and `move-made` goes to every member of the room, the mover
      included when it has joined. */
  lemma MoveBroadcast(s: Server, sid: SocketId, roomId: string, move: MovePayload, fen: string, pgn: string,
                      times: PlayerTimes, status: Option<string>, winner: Option<string>)
    requires Invariant(s.store)
    requires !NoMatch(s.store, ByRoomId(roomId))
    requires !Truthy(status) || IsStatus(status.value)
    requires !Truthy(winner) || IsWinner(winner.value)
    ensures var (s', out) := OnMakeMove(s, sid, roomId, Some(move), fen, pgn, times, status, winner);
      && |out| == 1 && out[0].event.MoveMade? && out[0].to == ToRoom(roomId)
      && Recipients(s'.rooms, sid, out[0].to) == Members(s.rooms, roomId)
      && var i := Find(s.store, ByRoomId(roomId)).value;
         && s'.store[i].currentFen == fen && s'.store[i].pgn == pgn && s'.store[i].playerTimes == times
  {
    var i := Find(s.store, ByRoomId(roomId)).value;
    assert Valid(s.store[i]);
  }

  /** Resignation never looks at the prior status: even a game already
      over (here: checkmated) is switched to 'resigned'. */
  lemma ResignOverridesFinishedGame(s: Server, sid: SocketId, roomId: string, who: Option<string>)
    requires Invariant(s.store)
    requires !NoMatch(s.store, ByRoomId(roomId))
    requires s.store[Find(s.store, ByRoomId(roomId)).value].gameStatus == "checkmate"
    ensures var i := Find(s.store, ByRoomId(roomId)).value;
      && OnResign(s, sid, roomId, who).0.store[i].gameStatus == "resigned"
      && OnResign(s, sid, roomId, who).0.store[i].winner == Some(ResignWinner(who))
  {
    var i := Find(s.store, ByRoomId(roomId)).value;
    assert Valid(s.store[i]);
  }

  /** Socket events never change who is connected apart from the sender,
      and only 'disconnect' removes a socket. */
  lemma DisconnectOnlyLeaver(s: Server, sid: SocketId, other: SocketId)
    requires other != sid && other in s.conns
    ensures other in OnDisconnect(s, sid).0.conns
    ensures forall room :: other in Members(s.rooms, room) ==> other in Members(OnDisconnect(s, sid).0.rooms, room)
  {
  }
}

=== FILE: stockfish_worker.dfy ===
/** The web worker that sits between the board and the Stockfish engine
    (frontend/src/workers/stockfishWorker.js): it turns requests from the
    page into UCI command lines for the engine, and the engine's output lines
    into messages for the page. The worker remembers only whether the engine
    loaded and whether it has answered `uciok`. */
module StockfishWorker {
  import opened Wrappers
  import opened JsText

  // ---------------------------------------------------------------------------
  // uciToMove

  /** The object `uciToMove` builds; `promotion` is `None` for `null`. */
  datatype Move = Move(from: string, to: string, promotion: Option<char>)

  /** `uciToMove`: `null` for a missing or too short string, otherwise the
      two squares and the optional promotion piece. Characters after the
      fifth are ignored. */
  function UciToMove(uci: Option<string>): (r: Option<Move>)
    ensures r.None? <==> uci.None? || |uci.value| < 4
    ensures r.Some? ==>
      && |r.value.from| == 2 && |r.value.to| == 2
      && r.value.from + r.value.to == uci.value[..4]
      && (r.value.promotion.Some? <==> |uci.value| > 4)
      && (r.value.promotion.Some? ==> r.value.promotion.value == uci.value[4])
  {
    if uci.None? || |uci.value| < 4 then None
    else
      var u := uci.value;
      Some(Move(Substring(u, 0, 2), Substring(u, 2, 4), if |u| > 4 then Some(u[4]) else None))
  }

  /** UCI long algebraic notation of a move: the inverse of `UciToMove`. */
  function MoveToUci(m: Move): string {
    m.from + m.to + (if m.promotion.Some? then [m.promotion.value] else "")
  }

  /** Rendering a move and converting it back gives the same move. */
  lemma UciRoundTrip(m: Move)
    requires |m.from| == 2 && |m.to| == 2
    ensures UciToMove(Some(MoveToUci(m))) == Some(m)
  {
    var u := MoveToUci(m);
    assert u[0..2] == m.from;
    assert u[2..4] == m.to;
  }

  /** A four- or five-character UCI string survives the conversion. */
  lemma UciStringRoundTrip(u: string)
    requires 4 <= |u| <= 5
    ensures MoveToUci(UciToMove(Some(u)).value) == u
  {
    if |u| == 5 {
      assert u == u[0..2] + u[2..4] + [u[4]];
    } else {
      assert u == u[0..2] + u[2..4];
    }
  }

  // ---------------------------------------------------------------------------
  // Worker state and messages

  /** A message the worker posts to the page. */
  datatype Posted =
    | Ready
    | BestMove(move: string)
    | Failure(message: string)
    | Evaluation(centipawns: int)
    | Mate(mateIn: int)

  datatype Worker = Worker(loaded: bool, ready: bool)

  /** What one step produces: messages to the page and lines to the engine,
      each in order. */
  datatype Output = Output(posted: seq<Posted>, sent: seq<string>)

  /** Worker start-up: with the engine available the worker sends `uci` and
      waits for `uciok`; without it the page is told once. */
  function Start(engineAvailable: bool): (r: (Worker, Output))
    ensures r.0.loaded == engineAvailable && !r.0.ready
    ensures engineAvailable ==> r.1 == Output([], ["uci"])
    ensures !engineAvailable ==> r.1 == Output([Failure("Failed to load Stockfish engine")], [])
  {
    if engineAvailable then (Worker(true, false), Output([], ["uci"]))
    else (Worker(false, false), Output([Failure("Failed to load Stockfish engine")], []))
  }

  // ---------------------------------------------------------------------------
  // Engine output

  /** The message for a line beginning with `bestmove`: its second
      space-separated token, unless that is missing, empty or `(none)`. */
  function BestMoveOf(line: string): (p: Posted)
    ensures p.BestMove? || p == Failure("No valid move found")
    ensures p.BestMove? <==>
      |Split(line, ' ')| > 1 && Split(line, ' ')[1] != "" && Split(line, ' ')[1] != "(none)"
    ensures p.BestMove? ==> p.move == Split(line, ' ')[1] && ' ' !in p.move
  {
    var parts := Split(line, ' ');
    if |parts| > 1 && parts[1] != "" && parts[1] != "(none)" then BestMove(parts[1])
    else Failure("No valid move found")
  }

  /** The engine's `onmessage`. The four checks are independent, so one line
      can produce several messages, in this order. */
  function OnEngineLine(w: Worker, line: string): (r: (Worker, seq<Posted>))
    ensures r.0.loaded == w.loaded
    ensures r.0.ready <==> w.ready || line == "uciok"
    ensures Ready in r.1 <==> line == "uciok"
    ensures (exists p :: p in r.1 && (p.BestMove? || p == Failure("No valid move found")))
            <==> StartsWith(line, "bestmove")
    ensures forall p :: p in r.1 && p.Evaluation? ==>
      Contains(line, "score cp") && MatchNumber(line, "score cp ") == Some(p.centipawns)
    ensures Contains(line, "score cp") && MatchNumber(line, "score cp ").Some? ==>
      Evaluation(MatchNumber(line, "score cp ").value) in r.1
    ensures forall p :: p in r.1 && p.Mate? ==>
      Contains(line, "score mate") && MatchNumber(line, "score mate ") == Some(p.mateIn)
    ensures Contains(line, "score mate") && MatchNumber(line, "score mate ").Some? ==>
      Mate(MatchNumber(line, "score mate ").value) in r.1
  {
    var ready := if line == "uciok" then [Ready] else [];
    var best := if StartsWith(line, "bestmove") then [BestMoveOf(line)] else [];
    var cp := if Contains(line, "score cp") && MatchNumber(line, "score cp ").Some?
              then [Evaluation(MatchNumber(line, "score cp ").value)] else [];
    var mate := if Contains(line, "score mate") && MatchNumber(line, "score mate ").Some?
                then [Mate(MatchNumber(line, "score mate ").value)] else [];
    (w.(ready := w.ready || line == "uciok"), ready + best + cp + mate)
  }

  /** `bestmove m ...` with a real move yields that move. */
  lemma BestMoveLine(m: string, rest: string)
    requires m != "" && m != "(none)" && ' ' !in m
    requires rest == "" || rest[0] == ' '
    ensures BestMoveOf("bestmove " + m + rest) == BestMove(m)
  {
    var b := "bestmove";
    assert "bestmove " + m + rest == b + [' '] + (m + rest);
    SplitWord(b, m + rest, ' ');
    SplitFirstPiece(m, rest, ' ');
  }

  /** `bestmove (none)` yields the error message. */
  lemma NoMoveLine(rest: string)
    requires rest == "" || rest[0] == ' '
    ensures BestMoveOf("bestmove (none)" + rest) == Failure("No valid move found")
  {
    var b, none := "bestmove", "(none)";
    assert "bestmove (none)" + rest == b + [' '] + (none + rest);
    SplitWord(b, none + rest, ' ');
    SplitFirstPiece(none, rest, ' ');
  }

  /** A bare `bestmove` yields the error message. */
  lemma BareBestMoveLine()
    ensures BestMoveOf("bestmove") == Failure("No valid move found")
  {
    var b := "bestmove";
    SplitNoSep(b, ' ');
  }

  /** A `score cp N` report, with no earlier `score cp ` on the line,
      yields `Evaluation(N)`. */
  lemma ScoreCpLine(p: string, n: int, t: string)
    requires forall i :: 0 <= i < |p| ==> !OccursAt(p + "score cp ", "score cp ", i)
    requires t == "" || !IsDigit(t[0])
    ensures Evaluation(n) in OnEngineLine(Worker(true, true), p + "score cp " + IntToString(n) + t).1
  {
    var line := p + "score cp " + IntToString(n) + t;
    MatchNumberOfRendering(p, "score cp ", n, t);
    assert OccursAt(line, "score cp", |p|) by {
      assert line[|p|..|p| + 8] == "score cp";
    }
  }

  /** A `score mate N` report, with no earlier `score mate ` on the line,
      yields `Mate(N)`. */
  lemma ScoreMateLine(p: string, n: int, t: string)
    requires forall i :: 0 <= i < |p| ==> !OccursAt(p + "score mate ", "score mate ", i)
    requires t == "" || !IsDigit(t[0])
    ensures Mate(n) in OnEngineLine(Worker(true, true), p + "score mate " + IntToString(n) + t).1
  {
    var line := p + "score mate " + IntToString(n) + t;
    MatchNumberOfRendering(p, "score mate ", n, t);
    assert OccursAt(line, "score mate", |p|) by {
      assert line[|p|..|p| + 10] == "score mate";
    }
  }

  const InfoPrefix: string := "info depth 1 seldepth 1 multipv 1 "

  /** The only `s` before the score in that line starts `seldepth`. */
  lemma InfoPrefixClear()
    ensures forall i :: 0 <= i < |InfoPrefix| ==> !OccursAt(InfoPrefix + "score cp ", "score cp ", i)
  {
    var p, key := InfoPrefix, "score cp ";
    forall i | 0 <= i < |p|
      ensures !OccursAt(p + key, key, i)
    {
      if i != 13 {
        assert (p + key)[i] == p[i] != 's';
      } else {
        assert (p + key)[i + 1] == 'e';
      }
    }
  }

  /** An `info` line as Stockfish prints it during a search reports its
      centipawn score. */
  lemma InfoLineScore()
    ensures Evaluation(77) in OnEngineLine(Worker(true, true), InfoPrefix + "score cp 77 nodes 20 pv e2e4").1
  {
    var key, t := "score cp ", " nodes 20 pv e2e4";
    assert IntToString(77) == "77" by {
      assert NatToString(77) == NatToString(7) + [DigitChar(7)];
    }
    assert InfoPrefix + "score cp 77 nodes 20 pv e2e4" == InfoPrefix + key + IntToString(77) + t;
    InfoPrefixClear();
    ScoreCpLine(InfoPrefix, 77, t);
  }

  // ---------------------------------------------------------------------------
  // Requests from the page

  /** The `data` object of a request; absent fields are `None`. A `value`
      for `setoption` is given as the text it renders to. */
  datatype RequestData = RequestData(
    fen: Option<string>,
    moves: Option<seq<string>>,
    depth: Option<int>,
    movetime: Option<int>,
    skill: Option<int>,
    name: Option<string>,
    value: Option<string>)

  /** Template rendering of an optional string: `undefined` when absent. */
  function Show(s: Option<string>): string {
    if s.Some? then s.value else "undefined"
  }

  const PositionFen: string := "position fen "
  const StartposMoves: string := "position startpos moves "
  const SkillPrefix: string := "setoption name Skill Level value "

  /** The `position` command: a truthy FEN wins; else a move list, even an
      empty one; else the start position. */
  function PositionCommand(fen: Option<string>, moves: Option<seq<string>>): (c: string)
    ensures Truthy(fen) ==> c == PositionFen + fen.value
    ensures !Truthy(fen) && moves.Some? ==> c == StartposMoves + Join(moves.value, ' ')
    ensures !Truthy(fen) && moves.None? ==> c == "position startpos"
  {
    if Truthy(fen) then PositionFen + fen.value
    else if moves.Some? then StartposMoves + Join(moves.value, ' ')
    else "position startpos"
  }

  /** The search command of a `go` request after its defaults (depth 10,
      movetime 1000) are applied: the first form whose numbers are truthy. */
  function GoCommand(depth: int, movetime: int): string {
    if depth != 0 && movetime != 0 then "go depth " + IntToString(depth) + " movetime " + IntToString(movetime)
    else if depth != 0 then "go depth " + IntToString(depth)
    else if movetime != 0 then "go movetime " + IntToString(movetime)
    else "go depth 10 movetime 1000"
  }

  /** A `go` request: the skill level first, then the search. */
  function GoCommands(data: RequestData): (cs: seq<string>)
    ensures |cs| == 2
    ensures cs[0] == SkillPrefix + IntToString(data.skill.GetOr(20))
    ensures cs[1] == GoCommand(data.depth.GetOr(10), data.movetime.GetOr(1000))
  {
    [SkillPrefix + IntToString(data.skill.GetOr(20)),
     GoCommand(data.depth.GetOr(10), data.movetime.GetOr(1000))]
  }

  const KnownKinds: set<string> := {"init", "position", "go", "evaluate", "stop", "quit", "setoption"}

  /** The worker's `onmessage` for a request of type `kind`. */
  function OnRequest(w: Worker, kind: string, data: RequestData): (r: Output)
    ensures !w.loaded ==> r == Output([Failure("Stockfish engine not available")], [])
    ensures w.loaded && kind !in KnownKinds ==> r == Output([Failure("Unknown command: " + kind)], [])
    ensures w.loaded && kind in KnownKinds ==> forall p :: p in r.posted ==> p == Ready
    ensures w.loaded && kind == "init" ==> r == Output(if w.ready then [Ready] else [], [])
    ensures w.loaded && kind == "position" ==> r.sent == [PositionCommand(data.fen, data.moves)]
    ensures w.loaded && kind == "go" ==> r.sent == GoCommands(data)
    ensures w.loaded && kind == "evaluate" ==>
      r.sent == (if Truthy(data.fen) then [PositionFen + data.fen.value] else []) + ["eval"]
    ensures w.loaded && kind in {"stop", "quit"} ==> r.sent == [kind]
    ensures w.loaded && kind == "setoption" ==>
      r.sent == ["setoption name " + Show(data.name) + " value " + Show(data.value)]
  {
    if !w.loaded then Output([Failure("Stockfish engine not available")], [])
    else if kind == "init" then Output(if w.ready then [Ready] else [], [])
    else if kind == "position" then Output([], [PositionCommand(data.fen, data.moves)])
    else if kind == "go" then Output([], GoCommands(data))
    else if kind == "evaluate" then
      Output([], (if Truthy(data.fen) then [PositionFen + data.fen.value] else []) + ["eval"])
    else if kind == "stop" then Output([], ["stop"])
    else if kind == "quit" then Output([], ["quit"])
    else if kind == "setoption" then
      Output([], ["setoption name " + Show(data.name) + " value " + Show(data.value)])
    else Output([Failure("Unknown command: " + kind)], [])
  }

  // ---------------------------------------------------------------------------
  // Commands read back

  /** The move list of a `position startpos moves` command is recovered by
      splitting on spaces, provided there is at least one move and no move
      contains a space. */
  lemma PositionMovesRoundTrip(moves: seq<string>)
    requires |moves| >= 1
    requires forall i :: 0 <= i < |moves| ==> ' ' !in moves[i]
    ensures var parts := Split(PositionCommand(None, Some(moves)), ' ');
      parts == ["position", "startpos", "moves"] + moves
  {
    var j := Join(moves, ' ');
    var w1, w2, w3 := "position", "startpos", "moves";
    assert StartposMoves == w1 + [' '] + w2 + [' '] + w3 + [' '];
    SplitWords3(w1, w2, w3, j, ' ');
    SplitJoin(moves, ' ');
  }

  /** The skill level is the number after the fixed prefix. */
  lemma SkillRoundTrip(data: RequestData)
    ensures var c := GoCommands(data)[0];
      StartsWith(c, SkillPrefix) && ParseInt(c[|SkillPrefix|..]) == Some(data.skill.GetOr(20))
  {
    var c := GoCommands(data)[0];
    assert c[|SkillPrefix|..] == IntToString(data.skill.GetOr(20));
    assert c[..|SkillPrefix|] == SkillPrefix;
    IntRoundTrip(data.skill.GetOr(20));
  }

  /** No character of a rendered integer is a letter. */
  lemma RenderedHasNo(n: int, c: char)
    requires c != '-' && !IsDigit(c)
    ensures c !in IntToString(n)
  {
  }

  lemma DepthAndMovetime(depth: int, movetime: int)
    ensures var c := "go depth " + IntToString(depth) + " movetime " + IntToString(movetime);
      && MatchNumber(c, "depth ") == Some(depth)
      && MatchNumber(c, "movetime ") == Some(movetime)
  {
    var d, m := IntToString(depth), IntToString(movetime);
    var c := "go depth " + d + " movetime " + m;
    var tail := " movetime " + m;
    assert c == "go " + "depth " + d + tail;
    FirstCharAbsent("go ", "depth ");
    MatchNumberOfRendering("go ", "depth ", depth, tail);
    var p := "go depth " + d + " ";
    RenderedHasNo(depth, 'm');
    assert 'm' !in p;
    FirstCharAbsent(p, "movetime ");
    assert c == p + "movetime " + m + "";
    MatchNumberOfRendering(p, "movetime ", movetime, "");
  }

  /** A go command with a single limit carries that limit. */
  lemma SingleLimit(key: string, n: int)
    requires key == "depth " || key == "movetime "
    ensures MatchNumber("go " + key + IntToString(n), key) == Some(n)
  {
    assert "go " + key + IntToString(n) == "go " + key + IntToString(n) + "";
    FirstCharAbsent("go ", key);
    MatchNumberOfRendering("go ", key, n, "");
  }

  lemma FallbackLimits()
    ensures MatchNumber(GoCommand(0, 0), "depth ") == Some(10)
    ensures MatchNumber(GoCommand(0, 0), "movetime ") == Some(1000)
  {
    assert NatToString(10) == "10" by {
      assert NatToString(1) == "1" && NatToString(0) == "0";
    }
    assert NatToString(1000) == "1000" by {
      assert NatToString(100) == "100" by {
        assert NatToString(10) == "10" by {
          assert NatToString(1) == "1" && NatToString(0) == "0";
        }
      }
    }
    assert GoCommand(0, 0) == "go depth " + IntToString(10) + " movetime " + IntToString(1000);
    DepthAndMovetime(10, 1000);
  }

  /** Every truthy limit reaches the engine: the search command carries the
      depth when it is non-zero and the move time when it is non-zero, and
      the fallback form (depth 10, move time 1000) when both are zero. */
  lemma GoCarriesLimits(depth: int, movetime: int)
    ensures depth != 0 ==> MatchNumber(GoCommand(depth, movetime), "depth ") == Some(depth)
    ensures movetime != 0 ==> MatchNumber(GoCommand(depth, movetime), "movetime ") == Some(movetime)
    ensures depth == 0 && movetime == 0 ==>
      && MatchNumber(GoCommand(depth, movetime), "depth ") == Some(10)
      && MatchNumber(GoCommand(depth, movetime), "movetime ") == Some(1000)
  {
    if depth != 0 && movetime != 0 {
      DepthAndMovetime(depth, movetime);
    } else if depth != 0 {
      assert GoCommand(depth, movetime) == "go " + "depth " + IntToString(depth);
      SingleLimit("depth ", depth);
    } else if movetime != 0 {
      assert GoCommand(depth, movetime) == "go " + "movetime " + IntToString(movetime);
      SingleLimit("movetime ", movetime);
    } else {
      FallbackLimits();
    }
  }
}

=== FILE: wrappers.dfy ===
/** Optional values, standing in for JavaScript's `undefined`/`null` on fields
    and parameters the application may leave out. */
module Wrappers {

  datatype Option<+T> = None | Some(value: T) {

    /** The carried value, or `default` when absent (a JavaScript default
        parameter, which applies only to `undefined`). */
    function GetOr(default: T): T {
      match this
      case Some(v) => v
      case None => default
    }
  }
}
